=== FILE: README.md ===
# Trip marketplace — a Dafny model

This project models the server side of a small trip-sharing marketplace. Users register and log in. A user hosts trips, and other users join and leave them. The host edits, cancels or concludes a trip and removes participants. Anyone may review a trip. It also models the browser helpers that feed the server:
- the request helper that adds the bearer token and classifies responses;
- the checks of the trip creation form;
- the image-resize arithmetic;
- the home page's query string.

The database is an immutable `Store` with four tables:
- `users`, `trips` and `reviews` are maps keyed by id;
- `trip_participants` is a set of (trip, user) pairs.

`Schema.Valid` gathers the table constraints: keys, the unique username, column lengths, the rating CHECK, NOT NULL columns and foreign keys. Every write goes through one primitive of module `Schema`. That primitive refuses a row breaking a constraint and otherwise changes exactly the targeted rows. Each route handler is a pure function from a store to a new store plus a reply. A refused write becomes a 500 reply, because every handler's `catch` answers 500. Read-only handlers that sort with `ORDER BY … DESC` are methods built on `Ordering.SortDescending`.

Opaque library calls become parameters, and no property of them is assumed:
- **Password hashing:** registration receives the digest; login receives the library's comparison.
- **Token verification:** a `Guard.Verifier` function.
- **UUID generation and `NOW()`:** a fresh id and a `now` value passed in.

The one fact about hashing a property needs, that a password matches its own digest, is a precondition of `AuthRoutes.RegisterThenLogin`.

## Behaviour as written

The model follows the code. In several places the code is looser than the lifecycle rules one would expect:
- **Join** has no capacity check and no status check. It inserts the pair first, then sets `Full` once the count reaches the maximum, even for a Cancelled or Concluded trip (`TripRoutes.JoinIgnoresStatusAndCapacity`).
- **Duplicate join** is refused by the primary key. The handler answers 500, not 409.
- **Leave** checks neither membership nor host. It always answers 204 and demotes a `Full` trip to `Upcoming` (`TripRoutes.HostMayLeave`).
- **Remove participant** checks only that the caller is the host. The target may be the host, and the trip may be in any state.
- **Cancel and conclude** refuse only a repeat of their own target state. A concluded trip can be cancelled, and a cancelled one concluded (`TripRoutes.TerminalStatesInterchange`).
- **Reviews** need no participation and no Concluded status. One author may review a trip any number of times.
- **Dates and capacities** are not validated on the server, at create or at edit. Only the browser form checks them (`CreateForm.Submit`).
- **Trip creation** runs two separate inserts. On a consistent store the second cannot fail (`TripRoutes.Create`).
- **Cover photo:** a create without one passes the handler's check but fails at the NOT NULL column, so the reply is 500.
- **Missing fields:** a create, edit or review, or a profile update of an existing user, whose body lacks a field bound to a NOT NULL column writes NULL there, so the reply is 500. A profile update for an id with no row updates nothing and answers 200 with no body, whatever fields are missing. A login without a password for a known username also answers 500, because the hashing library throws on the missing password.
- **Over-long text:** a VARCHAR column cuts text past its limit when only spaces are lost, and refuses it otherwise (`Schema.Varchar`). A username cut this way escapes the 409 check, which compares the text as sent. A second registration of it then meets the unique column and gets 500 (`AuthRoutes.RegisterTwiceConflicts`).

## Model

| member | source | states |
|---|---|---|
| Text.Split | server/src/auth.ts:7 | `split(c)` yields at least one field, no field contains the separator, and there is exactly one field iff the separator is absent |
| Text.JoinSplit | server/src/auth.ts:7 | joining the fields of a split with the separator gives back the original string |
| Text.SplitJoin | server/src/auth.ts:7 | splitting a join of separator-free fields gives back the fields |
| Text.SecondField | server/src/auth.ts:7 | `split(c)[1]` is undefined exactly when the separator is absent; otherwise it has no separator and follows a separator-free first field and one separator, up to the end or the next separator |
| Text.SecondFieldOfPair | server/src/routes/users.ts:149 | for `head c field` with no other separator, the second field is `field` |
| Text.SecondFieldOfTriple | server/src/auth.ts:7 | text after a second separator is never looked at: the second field of `head c field c tail` is `field` |
| Text.SearchIgnoresCase | server/src/routes/trips.ts:40 | the ILIKE search ignores case: lower-casing the title or the term first gives the same verdict |
| Model.ParseStatus | lib/types.ts:1-6 | a status text read back names the state whose stored text it is |
| Model.ParseStatusName | lib/types.ts:1-6 | every state's stored text reads back as that state, so the four names are distinct |
| Model.Members | server/src/routes/trips.ts:88 | the users counted for a trip are exactly those with a participation row for it |
| Model.CodesDistinct | server/src/routes/trips.ts:220-230 | no two refusals share a status code, so the status tells which refusal it is |
| Schema.Empty | server/src/db.ts:16-62 | the empty database satisfies every constraint |
| Schema.Varchar | server/src/db.ts:19-33 | assigning text to a VARCHAR(n) column: it is accepted iff it fits or only spaces lie past `n`, and then stored as its first `min(len, n)` characters, losing only spaces |
| Schema.VarcharStable | server/src/db.ts:19-33 | storing a stored value again changes nothing, and text that fits is stored unchanged |
| Schema.OneExcessCharacter | server/src/db.ts:19-33 | one character past the limit is cut off when it is a space and refused otherwise |
| Schema.InsertUser | server/src/db.ts:16-25 | a user row is stored iff its id is new, username and mantra are accepted by their VARCHAR(50) and VARCHAR(128) columns, and the stored username is not taken; the row is stored as the columns coerce it and keeps the constraints |
| Schema.UpdateUser | server/src/db.ts:16-25 | an update of an absent id changes nothing; otherwise it is stored, as the columns coerce it, iff both columns accept their values and no other user holds the stored username |
| Schema.InsertTrip | server/src/db.ts:27-42 | a trip row is stored iff its id is new, it has a cover photo, title, description and destination are accepted by their VARCHAR(128), VARCHAR(255) and VARCHAR(100) columns, and its host exists; the row is stored as the columns coerce it, and a trip without a photo is always refused |
| Schema.UpdateTrip | server/src/db.ts:27-42 | rewriting a trip row succeeds iff the new row meets the same NOT NULL, VARCHAR and host constraints, and then it is stored as the columns coerce it; an absent id changes nothing |
| Schema.SetStatus | server/src/routes/trips.ts:338 | setting a status changes only that trip's status and never breaks a constraint |
| Schema.InsertParticipant | server/src/db.ts:44-51 | a (trip, user) pair is stored iff it is new (the primary key) and both trip and user exist |
| Schema.DeleteParticipant | server/src/routes/trips.ts:353 | deleting a pair removes exactly that pair, whether or not it existed |
| Schema.InsertReview | server/src/db.ts:53-62 | a review is stored iff its id is new, its rating is within 1..5 and its trip and author exist; a rating outside 1..5 is always refused |
| Schema.DeleteTrip | server/src/db.ts:44-58 | deleting a trip removes its participation rows and its reviews and nothing else, and keeps the constraints |
| Schema.DeleteUser | server/src/db.ts:36-57 | deleting a user removes the trips they host with everything hanging off them and their own participations; their reviews on other trips survive with no author, and every surviving row is otherwise unchanged |
| Schema.DeleteUserKeepsValid | server/src/db.ts:16-62 | the cascades of a user deletion leave every constraint satisfied |
| Ordering.InsertDescending | server/src/routes/trips.ts:54 | inserting a row into a list sorted by descending key keeps it sorted and distinct, and adds exactly that row |
| Ordering.SortDescending | server/src/routes/trips.ts:54 | `ORDER BY key DESC` returns every selected row exactly once, largest key first |
| Guard.TokenOf | server/src/auth.ts:6-7 | no header or a header without a space has no token; a token is non-empty, has no space, and is the second word: it follows a space-free first word and one space, up to the end or the next space |
| Guard.AnySchemeYieldsToken | server/src/auth.ts:7 | the first word is not checked: any `X tok` yields `tok` |
| Guard.SecondWordYieldsToken | server/src/auth.ts:7 | in a header of three or more words the token is the second word, whatever follows it |
| Guard.EmptySecondWordRefused | server/src/auth.ts:7-11 | a header whose second word is empty (`Bearer ` or a double space) carries no token |
| Guard.Authenticate | server/src/auth.ts:5-19 | 401 iff there is no token, 403 iff the token is refused, otherwise the caller is the verified claims |
| Guard.Protected | server/src/auth.ts:9-18 | a refused request leaves the store unchanged with 401 or 403; an accepted one is exactly the handler run once with the verified claims |
| Guard.RefusedNeverReachesHandler | server/src/auth.ts:9-16 | on a refused request the outcome does not depend on the handler |
| ApiClient.BuildHeaders | lib/api.ts:9-16 | the content type defaults to JSON and the caller's headers override it; `Bearer <token>` is added iff the token is non-empty and overrides a caller-given Authorization |
| ApiClient.BearerRoundTrip | lib/api.ts:14-16 | for a non-empty token without spaces, the guard reads back exactly the token the client sent |
| ApiClient.Classify | lib/api.ts:23-32 | a non-2xx response throws the server's message, or the status text when the body is not JSON, or the fallback text when that text is empty too; 204 yields null; any other 2xx yields the body |
| ApiClient.ServerRefusalSurfaces | lib/api.ts:23-26 | any refusal the server sends, an error status with a JSON message, is thrown to the caller with exactly that message |
| ApiClient.EmptyReplyIsNull | lib/api.ts:28-30 | a 204 reply resolves to null whatever its body |
| DataUrl.MatchCover | server/src/routes/trips.ts:175 | a match means the text is `data:image/<\w+>;base64,<payload>` with a non-empty single-line payload, and the captures are the media type and the payload |
| DataUrl.MatchCoverComplete | server/src/routes/trips.ts:175 | every text of that shape matches, capturing exactly its subtype and payload |
| DataUrl.SvgCoverRefused | server/src/routes/trips.ts:175-178 | `image/svg+xml` is not a `\w+` subtype, so such a cover never matches |
| DataUrl.ProfilePhotoChange | server/src/routes/users.ts:146-151 | the photo is kept unless the value starts with `data:image`; such a value with no comma has no payload, and decoding it throws; otherwise (a `data:image` value with a comma, even an empty payload) the photo is replaced by the field after the first comma, up to the end or the next comma |
| DataUrl.LaterCommasIgnored | server/src/routes/users.ts:147-150 | for `data:image…,A,B` the stored payload is `A`: text after a second comma is dropped |
| DataUrl.ProfileAndCoverAgree | server/src/routes/users.ts:147-150 | for a well-formed image data URL with a comma-free payload, the profile rule and the cover pattern take the same payload |
| TripRoutes.CoverOf | server/src/routes/trips.ts:172-180 | an absent or empty cover photo is no photo; a supplied one is refused with 400 iff it does not match the pattern, and a matching one always succeeds with its payload as the photo |
| TripRoutes.Create | server/src/routes/trips.ts:165-209 | 400 exactly for a malformed cover, with nothing stored; 500 for a missing field, and every other failure (a missing cover or a database refusal) is 500; on success the trip is new, Upcoming, hosted by the caller, holds the form's values as the columns store them and the cover's payload, and the host is its only participant; a failure changes nothing on a consistent store |
| TripRoutes.Edit | server/src/routes/trips.ts:213-267 | 404 and 403 change nothing; for the host, 400 exactly for a supplied cover that does not match the pattern, and every other failure (a missing field or a database refusal) is 500, all changing nothing; the host's edit overwrites text, date and capacity fields as the columns store them but keeps the cover photo and status when none is supplied, and touches no other row |
| TripRoutes.Cancel | server/src/routes/trips.ts:271-293 | 404, 403, and 400 only for an already-cancelled trip; otherwise the trip becomes Cancelled from any other state, and nothing else changes |
| TripRoutes.Conclude | server/src/routes/trips.ts:296-318 | 404, 403, and 400 only for an already-concluded trip; otherwise the trip becomes Concluded from any other state |
| TripRoutes.RepeatFinishRefused | server/src/routes/trips.ts:281 | cancelling or concluding a second time is refused with 400 and changes nothing |
| TripRoutes.TerminalStatesInterchange | server/src/routes/trips.ts:280-311 | a concluded trip can be cancelled and a cancelled trip concluded |
| TripRoutes.Join | server/src/routes/trips.ts:322-346 | a duplicate pair, unknown trip or unknown user gives 500 and no change; otherwise the caller becomes a member, the count grows by one, and the status becomes Full iff the count reaches the maximum, otherwise it is unchanged |
| TripRoutes.JoinIgnoresStatusAndCapacity | server/src/routes/trips.ts:326-338 | a cancelled trip already at capacity still accepts a newcomer, goes over its maximum and becomes Full |
| TripRoutes.Depart | server/src/routes/trips.ts:353-356 | the pair is removed, a Full trip becomes Upcoming, and every other status and row is untouched |
| TripRoutes.Leave | server/src/routes/trips.ts:349-363 | always 204; the caller's pair is gone and a Full trip becomes Upcoming, whether or not the caller was a participant |
| TripRoutes.HostMayLeave | server/src/routes/trips.ts:353-356 | the host leaving their own trip succeeds and the host is no longer a member |
| TripRoutes.RemoveParticipant | server/src/routes/trips.ts:366-383 | 404 and 403 change nothing; the host's removal deletes the target's pair and demotes a Full trip, with no check on the target or the trip's state |
| TripRoutes.AddReview | server/src/routes/trips.ts:387-402 | a review is stored iff rating and comment are present, the rating is in 1..5 and its trip and author exist, whatever the trip's status or the author's participation; any refusal is 500 |
| TripListing.ListTrips | server/src/routes/trips.ts:24-71 | the list holds every trip matching the search, status and free-places filters whose host exists, once each with its participant count, newest first |
| TripListing.HasSlotsFilter | server/src/routes/trips.ts:46-48 | with `hasSlots=true` only Upcoming trips below their maximum are listed, and with no other filter all of them are |
| TripListing.StatusFilter | server/src/routes/trips.ts:42-45 | the status filter is exact equality with the stored state, and a text naming no state lists nothing |
| TripListing.CreatedTripIsListed | server/src/routes/trips.ts:182-201 | a newly created trip has one participant, is on the unfiltered list, and is on the free-places list iff its maximum exceeds one |
| TripListing.JoinToCapacityLeavesFreePlaces | server/src/routes/trips.ts:337-338 | a join that brings a trip to its maximum takes it off the free-places list |
| TripListing.GetTrip | server/src/routes/trips.ts:75-161 | 404 iff the trip or its host is absent; otherwise the trip, its count, its participants, and the reviews whose author still exists, each once, newest first |
| UserRoutes.GetProfile | server/src/routes/users.ts:11-77 | 403 unless the caller asks for themself, then 404 for an absent user, and success for an existing one: the hosted trips, the joined-but-not-hosted trips and the reviews of hosted trips, each complete and duplicate-free, in the order of the queries |
| UserRoutes.HostedAndJoinedDisjoint | server/src/routes/users.ts:32-39 | no trip is both hosted and joined on a profile |
| UserRoutes.MyTrips | server/src/routes/users.ts:81-124 | every trip the caller takes part in whose host exists, hosted ones included, once each with its count, latest start first |
| UserRoutes.MyTripsAreJoinedOrHosted | server/src/routes/users.ts:111-114 | on a consistent store the trip list is the joined trips plus the hosted trips the user still takes part in |
| UserRoutes.UpdateProfile | server/src/routes/users.ts:129-176 | 403 unless self; for the caller, 409 iff another user holds the username as sent, and every other failure is 500: for a photo with no payload, a missing username or mantra, a value its column refuses, or a username that collides once cut; otherwise the row gets the new username and mantra as stored, keeps its password and creation time (only username, mantra and photo change), and keeps or replaces its photo by the data-URL rule |
| UserRoutes.KeepOwnUsername | server/src/routes/users.ts:138-144 | sending back one's own username is not a conflict, and a value that is not an image data URL keeps the photo |
| AuthRoutes.Register | server/src/routes/auth.ts:12-43 | 400 for a missing or empty username, password or mantra; 409 for a username taken as sent; every other failure, when a column refuses a value or the cut username is taken, is 500; otherwise exactly one user is added, as the columns store it, and the reply carries the stored public fields and claims without the password |
| AuthRoutes.FindUser | server/src/routes/auth.ts:49 | the lookup by username finds a user iff the name is taken, and the user it finds holds that name |
| AuthRoutes.Login | server/src/routes/auth.ts:46-70 | an unknown or missing username and a wrong password give the same 401; a missing password for a known username is 500; success iff some user with that name matches the password; the reply omits the password |
| AuthRoutes.Me | server/src/routes/auth.ts:73-95 | 404 iff the token's user no longer exists; otherwise that user's public fields |
| AuthRoutes.RegisterThenLogin | server/src/routes/auth.ts:25-65 | after registering, logging in with the returned username and the same password succeeds with the same account and claims, given that the password matches its own digest; the returned username is the one sent when it fits its column |
| AuthRoutes.RegisterTwiceConflicts | server/src/routes/auth.ts:20-41 | registering a username again answers 409 when it fit its column, and 500 when it was cut, because the check misses the cut name and the unique column refuses it |
| AuthRoutes.TrailingSpaceIsCut | server/src/routes/auth.ts:20-38 | a username of the column's length plus one space registers, and the stored account and the claims carry the name without the space |
| AuthRoutes.RegisterThenMe | server/src/routes/auth.ts:33-38 | the claims returned by registration name the user that `me` then finds, with the same public fields |
| AuthRoutes.UpdateThenMe | server/src/routes/users.ts:153-171 | after a successful profile update, `me` shows exactly what the update returned |
| CreateForm.Submit | app/create/page.tsx:141-169 | the request is sent iff no check fails, and then with the cover photo; otherwise the reported error is a failing check with no failing check before it |
| CreateForm.MessageIdentifiesCheck | app/create/page.tsx:145-160 | the four checks show four different messages, so the text shown tells which check failed |
| CreateForm.FirstFailureReported | app/create/page.tsx:145-160 | the first failing check in the fixed order is the one reported |
| CreateForm.BoundariesPass | app/create/page.tsx:149-156 | equal start and end dates pass, and equal minimum and maximum pass |
| CreateForm.Drop | app/create/page.tsx:116-139 | no file is ignored; a non-`image/` type is refused; an image over 10485760 bytes is refused; otherwise the first file is processed |
| CreateForm.DropMessagesDiffer | app/create/page.tsx:126-134 | a non-image and an over-large file are refused with different messages |
| CreateForm.OnlyFirstFileCounts | app/create/page.tsx:121-123 | files after the first are never looked at |
| CreateForm.ExactLimitPasses | app/create/page.tsx:132-135 | a file of exactly 10485760 bytes passes and one byte more is refused |
| CreateForm.TypeCheckedBeforeSize | app/create/page.tsx:126-135 | a non-image is refused as such whatever its size |
| ImageFit.RoundDiv | lib/image.ts:27 | `Math.round(n / d)` is the integer nearest to the quotient, halves rounding up |
| ImageFit.Fit | lib/image.ts:23-35 | a landscape picture wider than the bound gets the bound's width and the rounded proportional height, and symmetrically for height; a picture within its bound is unchanged |
| ImageFit.FitNeverEnlarges | lib/image.ts:25-35 | neither output side exceeds the input side |
| ImageFit.FitSquare | lib/image.ts:25-35 | with one bound M for both sides, both output sides are at most M |
| ImageFit.LandscapeIgnoresHeightBound | lib/image.ts:25-29 | a landscape picture within the width bound is kept even when it exceeds the height bound |
| HomeQuery.QueryParams | app/page.tsx:19-22 | `search` is present iff the term is non-empty and equals it; `status` is present iff a state is chosen and names it; `hasSlots=true` is present iff "Available" is chosen; nothing else is set and no key repeats |
| HomeQuery.Lookup | server/src/routes/trips.ts:25 | the server reads a parameter's value when the key is present, and "" when it is absent |
| HomeQuery.QueryRoundTrip | app/page.tsx:19-24 | the parameters the page builds read back on the server as exactly the chosen term, state and free-places flag |
| HomeQuery.ListedForChoices | app/page.tsx:19-24 | a trip is listed for the page's choices iff it matches the term, is in the chosen state, and, when "Available" is chosen, is Upcoming with a free place |

## Left out

- SQL text, the connection pool, table creation at start-up and the Express wiring. Only their effect on the store is modelled.
- Password hashing, token signing, token expiry and signature checking are foreign libraries, passed in as parameters. Token signing is represented by the claims it would sign.
- Base64 encoding and decoding of photos. A stored photo keeps the payload text. The `data:image/png;base64,` re-encoding on read, the trip list's `data:image/jpeg` prefix and the detail page's default cover path for a NULL photo are not modelled.
- Row ids are abstract integers. A path id that is not UUID syntax makes the database raise an error (a 500 in the source), and that is not modelled.
- The `createdAt` defaults of users, trips and reviews are a `now` parameter. A participant's `joinedAt` column is not modelled, because no route reads it; participants are bare (trip, user) pairs. DATE parsing is not modelled; dates are day numbers.
- Request values of another JSON type than the column's, such as a rating or capacity sent as text or as a fraction, are cast or refused by the database. The model receives integers.
- The 32-bit width of the INTEGER columns (capacities, rating) is not modelled. An out-of-range number would be refused with a 500.
- The ILIKE search is modelled as an ASCII case-insensitive substring test. The `%` and `_` wildcards inside the term, and case folding beyond ASCII, are left out.
- Response shapes are reduced to what the contracts speak about:
  - the profile's trip lists are trip ids;
  - the embedded host and author objects are not built;
  - `participantCount` is a number, not the string the driver returns;
  - login's reply lacks `createdAt`.
- Concurrency and races, such as two simultaneous joins. Every handler is one atomic sequential step.
- TripRoutes.Edit: the supplied status is one of the four states or absent. The handler would also store any other text that fits the column, and "" falls back to the current status.
- UserRoutes.UpdateProfile: when the username is held by another user and also by the caller, the model answers 409; the source's answer depends on which row the database returns first, which can only happen on a store with duplicate usernames.
- AuthRoutes.Login: requires unique usernames, which the username column's UNIQUE constraint guarantees. With duplicates, which row the database returns first is unspecified.
- AuthRoutes.FindUser: requires unique usernames for the same reason.
- In `apiFetch`, the network call and the JSON parser are not modelled. A body is either parsed JSON with an optional `message` or unparsable text.
- The browser image compression (file reader, canvas, JPEG quality) is not modelled. Only the integer width and height computation is. `CreateForm.Drop` names the file to process; it does not produce the compressed image.
- In the create form, the conversion of the text fields into dates and numbers (`new Date`, `Number`) is not modelled. The model receives the converted values, with None for an invalid date or NaN.
- What happens after the trip is sent (the alert and the redirect) is not modelled.
- The geocoding lookup, the AI destination route, the React components, the session provider and the other pages are UI and third-party network calls, outside this model.

=== FILE: api_client.dfy ===
/**
 * The browser's single entry point to the server: how a request's headers
 * are assembled from the caller's headers and the session token, and how a
 * response is turned into a value or a thrown error. The network call
 * itself is not modelled.
 */
module ApiClient {
  import opened Wrappers
  import Model
  import Guard

  const ContentType := "Content-Type"
  const Authorization := "Authorization"
  const JsonMediaType := "application/json"
  const BearerScheme := "Bearer"
  const FallbackMessage := "An API error occurred"

  /** `if (token)`: an absent or empty token adds no Authorization header. */
  predicate HasToken(token: Option<string>) {
    token.Some? && token.value != ""
  }

  /**
   * The headers sent: JSON content type by default, then the caller's own
   * headers over it, then `Bearer <token>` over any Authorization the caller gave.
   */
  function BuildHeaders(token: Option<string>, given: map<string, string>): (h: map<string, string>)
    ensures h.Keys == given.Keys + {ContentType} + (if HasToken(token) then {Authorization} else {})
    ensures HasToken(token) ==> h[Authorization] == BearerScheme + " " + token.value
    ensures !HasToken(token) ==> (Authorization in h <==> Authorization in given)
    ensures ContentType in given && !(HasToken(token) && ContentType == Authorization) ==> h[ContentType] == given[ContentType]
    ensures ContentType !in given ==> h[ContentType] == JsonMediaType
    ensures forall k :: k in given && !(HasToken(token) && k == Authorization) ==> h[k] == given[k]
  {
    var base := map[ContentType := JsonMediaType] + given;
    if HasToken(token) then base[Authorization := BearerScheme + " " + token.value] else base
  }

  /**
   * The header the client writes is the one the server's guard reads: for a
   * non-empty token without spaces, the second word of `Bearer <token>` is the token.
   */
  lemma BearerRoundTrip(token: string, given: map<string, string>)
    requires token != "" && ' ' !in token
    ensures Guard.TokenOf(Some(BuildHeaders(Some(token), given)[Authorization])) == Some(token)
  {
    Guard.AnySchemeYieldsToken(BearerScheme, token);
  }

  /** A response body: JSON whose `message` field may be missing, or text that is not JSON. */
  datatype Body = Malformed | Json(message: Option<string>)

  datatype HttpResponse = HttpResponse(status: int, statusText: string, body: Body)

  /** What the caller of the fetch helper sees. */
  datatype ApiResult =
    | Thrown(message: string)   // an Error carrying this message
    | NoContent                 // resolves to null
    | Data(json: Body)          // resolves to the parsed body
    | ParseFailure              // the body of a successful response is not JSON

  /** `response.ok`: a 2xx status. */
  predicate IsOk(status: int) {
    200 <= status <= 299
  }

  /** `errorData.message || 'An API error occurred'`, where an unparsable body reads as `{message: statusText}`. */
  function ErrorMessage(r: HttpResponse): string {
    var m := match r.body
      case Malformed => Some(r.statusText)
      case Json(m) => m;
    if m.Some? && m.value != "" then m.value else FallbackMessage
  }

  function Classify(r: HttpResponse): (out: ApiResult)
    ensures !IsOk(r.status) <==> out.Thrown?
    ensures out.Thrown? ==> out.message != ""
    ensures !IsOk(r.status) && r.body.Json? && r.body.message.Some? && r.body.message.value != "" ==>
      out == Thrown(r.body.message.value)
    ensures !IsOk(r.status) && r.body.Malformed? && r.statusText != "" ==> out == Thrown(r.statusText)
    ensures !IsOk(r.status) && r.body.Malformed? && r.statusText == "" ==> out == Thrown(FallbackMessage)
    ensures !IsOk(r.status) && r.body.Json? && (r.body.message.None? || r.body.message.value == "") ==>
      out == Thrown(FallbackMessage)
    ensures out == NoContent <==> r.status == 204
    ensures out.Data? <==> IsOk(r.status) && r.status != 204 && r.body.Json?
    ensures out.Data? ==> out.json == r.body
  {
    if !IsOk(r.status) then Thrown(ErrorMessage(r))
    else if r.status == 204 then NoContent
    else if r.body.Malformed? then ParseFailure
    else Data(r.body)
  }

  /**
   * Every refusal the server sends is an error status with a JSON `message`:
   * the caller's error carries exactly that message, whatever the status text.
   */
  lemma ServerRefusalSurfaces(e: Model.HttpError, statusText: string, message: string)
    requires message != ""
    ensures Classify(HttpResponse(Model.Code(e), statusText, Json(Some(message)))) == Thrown(message)
  {}

  /** The server's empty 204 replies resolve to null rather than failing to parse. */
  lemma EmptyReplyIsNull(statusText: string, body: Body)
    ensures Classify(HttpResponse(204, statusText, body)) == NoContent
  {}
}

=== FILE: auth_routes.dfy ===
/**
 * The auth router: registration, login and "who am I". Password hashing and
 * comparison belong to the hashing library: registration receives the digest
 * of the new password, and login receives the library's comparison. Token
 * signing is not modelled; a token is represented by the claims it carries.
 */
module AuthRoutes {
  import opened Wrappers
  import opened Model
  import opened Schema
  import Guard
  import UserRoutes

  /** The hashing library's check of a plain password against a stored digest. */
  type Comparer = (string, Digest) -> bool

  /** The user's public fields and the claims signed into the session token. */
  type Session = (Account, Guard.Claims)

  /**
   * `POST /auth/register`: 400 when username, password or mantra is missing
   * or empty, 409 when the username is taken, 500 when the row is refused;
   * otherwise the user is stored with no photo and 201 carries the account
   * and the claims `{id, username}` as the row was stored (the username
   * check compares the text as sent, the column then cuts trailing spaces
   * past its limit). A photo in the request is ignored.
   */
  function Register(s: Store, id: UserId, hashed: Digest, now: int,
                    username: string, password: string, mantra: string): (o: Outcome<Session>)
    ensures username == "" || password == "" || mantra == "" ==> o == Outcome(s, Failure(BadRequest))
    ensures username != "" && password != "" && mantra != "" && UsernameTaken(s, username) ==>
      o == Outcome(s, Failure(Conflict))
    ensures o.reply.Failure? ==> o.store == s && o.reply.error in {BadRequest, Conflict, ServerError}
    ensures o.reply.Failure? && username != "" && password != "" && mantra != "" && !UsernameTaken(s, username) ==>
      o.reply.error == ServerError
    ensures o.reply.Success? <==>
      && username != "" && password != "" && mantra != "" && !UsernameTaken(s, username) && id !in s.users
      && Varchar(username, UsernameMax).Some? && Varchar(mantra, MantraMax).Some?
      && !UsernameTaken(s, Varchar(username, UsernameMax).value)
    ensures o.reply.Success? ==>
      var name, motto := Varchar(username, UsernameMax).value, Varchar(mantra, MantraMax).value;
      && o.reply.code == 201
      && o.store == s.(users := s.users[id := User(name, hashed, motto, None, now)])
      && o.reply.body == (Account(id, name, motto, None), Guard.Claims(id, name))
    ensures Valid(s) ==> Valid(o.store)
  {
    if username == "" || password == "" || mantra == "" then Outcome(s, Failure(BadRequest))
    else if UsernameTaken(s, username) then Outcome(s, Failure(Conflict))
    else
      match InsertUser(s, id, User(username, hashed, mantra, None, now))
      case Err(_) => Outcome(s, Failure(ServerError))
      case Ok(s1) =>
        var row := s1.users[id];
        Outcome(s1, Success(201, (Account(id, row.username, row.mantra, None), Guard.Claims(id, row.username))))
  }

  /** The user holding `name`; the username column is unique, so there is at most one. */
  function FindUser(s: Store, name: string): (r: Option<UserId>)
    requires UniqueUsernames(s)
    ensures r.None? <==> !UsernameTaken(s, name)
    ensures r.Some? ==> r.value in s.users && s.users[r.value].username == name
  {
    if UsernameTaken(s, name) then
      var id :| id in s.users && s.users[id].username == name;
      Some(id)
    else None
  }

  /**
   * `POST /auth/login`: an unknown username and a wrong password get the
   * same 401 (a missing username is NULL, which matches no row); a missing
   * password for a known username makes the hashing library throw, which is
   * a 500; otherwise 200 carries the account without its password and the
   * claims `{id, username}`. Nothing is written.
   */
  function Login(s: Store, username: Option<string>, password: Option<string>, compare: Comparer): (o: Outcome<Session>)
    requires UniqueUsernames(s)
    ensures o.store == s
    ensures o.reply.Failure? ==> o.reply.error in {Unauthorized, ServerError}
    ensures o.reply == Failure(ServerError) <==>
      username.Some? && UsernameTaken(s, username.value) && password.None?
    ensures o.reply.Success? <==>
      && username.Some? && password.Some?
      && exists id :: id in s.users && s.users[id].username == username.value && compare(password.value, s.users[id].password)
    ensures o.reply.Success? ==>
      && o.reply.code == 200
      && o.reply.body.0.id in s.users
      && o.reply.body.0 == AccountOf(s, o.reply.body.0.id)
      && s.users[o.reply.body.0.id].username == username.value
      && o.reply.body.1 == Guard.Claims(o.reply.body.0.id, username.value)
  {
    if username.None? then Outcome(s, Failure(Unauthorized))
    else
      match FindUser(s, username.value)
      case None => Outcome(s, Failure(Unauthorized))
      case Some(id) =>
        if password.None? then Outcome(s, Failure(ServerError))
        else if !compare(password.value, s.users[id].password) then Outcome(s, Failure(Unauthorized))
        else Outcome(s, Success(200, (AccountOf(s, id), Guard.Claims(id, username.value))))
  }

  /** `GET /auth/me`: the caller's public fields, or 404 when the token outlived the user. */
  function Me(s: Store, caller: Guard.Claims): (r: Result<Account, HttpError>)
    ensures r.Err? <==> caller.id !in s.users
    ensures r.Err? ==> r.error == NotFound
    ensures r.Ok? ==> r.value.id == caller.id && r.value.username == s.users[caller.id].username
    ensures r.Ok? ==> r.value.mantra == s.users[caller.id].mantra && r.value.bioPhoto == s.users[caller.id].bioPhoto
  {
    if caller.id !in s.users then Err(NotFound) else Ok(AccountOf(s, caller.id))
  }

  /**
   * A user who registers can log in with the same password under the
   * username registration returned (given that the hashing library accepts
   * the password against its own digest), and the session matches the one
   * registration returned. That username is the one sent whenever it fits
   * its column.
   */
  lemma RegisterThenLogin(s: Store, id: UserId, hashed: Digest, now: int,
                          username: string, password: string, mantra: string, compare: Comparer)
    requires Valid(s)
    requires Register(s, id, hashed, now, username, password, mantra).reply.Success?
    requires compare(password, hashed)
    ensures |username| <= UsernameMax ==>
      Register(s, id, hashed, now, username, password, mantra).reply.body.1.username == username
    ensures UniqueUsernames(Register(s, id, hashed, now, username, password, mantra).store)
    ensures Login(Register(s, id, hashed, now, username, password, mantra).store,
                  Some(Register(s, id, hashed, now, username, password, mantra).reply.body.1.username),
                  Some(password), compare).reply
      == Register(s, id, hashed, now, username, password, mantra).reply.(code := 200)
  {
    var o := Register(s, id, hashed, now, username, password, mantra);
    var name := o.reply.body.1.username;
    assert o.store.users[id].username == name;
    if |username| <= UsernameMax {
      VarcharStable(username, UsernameMax);
    }
    var found := FindUser(o.store, name);
    assert found == Some(id) by {
      assert UniqueUsernames(o.store);
    }
  }

  /**
   * A registered username cannot be registered again: the check answers 409
   * when the name fit its column; a name that was cut is not found by the
   * check, and the unique column then refuses the insert with a 500.
   */
  lemma RegisterTwiceConflicts(s: Store, id: UserId, id2: UserId, hashed: Digest, hashed2: Digest, now: int,
                               username: string, password: string, mantra: string,
                               password2: string, mantra2: string)
    requires Register(s, id, hashed, now, username, password, mantra).reply.Success?
    requires password2 != "" && mantra2 != ""
    ensures Register(Register(s, id, hashed, now, username, password, mantra).store, id2, hashed2, now,
                     username, password2, mantra2).reply
      == Failure(if |username| <= UsernameMax then Conflict else ServerError)
  {
    var s1 := Register(s, id, hashed, now, username, password, mantra).store;
    var name := Varchar(username, UsernameMax).value;
    assert s1.users[id].username == name;
    if |username| <= UsernameMax {
      VarcharStable(username, UsernameMax);
      assert UsernameTaken(s1, username);
    } else {
      assert |name| < |username|;
      assert !UsernameTaken(s, username);
      assert forall o :: o in s1.users ==> s1.users[o].username != username by {
        forall o | o in s1.users ensures s1.users[o].username != username {
          if o != id { assert s1.users[o] == s.users[o]; }
        }
      }
      assert UsernameTaken(s1, name);
    }
  }

  /**
   * A username one space longer than its column registers: the column cuts
   * the space, and the stored account and the claims carry the cut name.
   */
  lemma TrailingSpaceIsCut(s: Store, id: UserId, hashed: Digest, now: int,
                           name: string, password: string, mantra: string)
    requires |name| == UsernameMax && password != "" && mantra != "" && |mantra| <= MantraMax
    requires id !in s.users && !UsernameTaken(s, name) && !UsernameTaken(s, name + " ")
    ensures Register(s, id, hashed, now, name + " ", password, mantra).reply.Success?
    ensures Register(s, id, hashed, now, name + " ", password, mantra).reply.body.1 == Guard.Claims(id, name)
  {
    OneExcessCharacter(name, UsernameMax, ' ');
    VarcharStable(mantra, MantraMax);
  }

  /** The session from registration names a user that `me` then finds. */
  lemma RegisterThenMe(s: Store, id: UserId, hashed: Digest, now: int,
                       username: string, password: string, mantra: string)
    requires Register(s, id, hashed, now, username, password, mantra).reply.Success?
    ensures Me(Register(s, id, hashed, now, username, password, mantra).store,
               Register(s, id, hashed, now, username, password, mantra).reply.body.1)
      == Ok(Register(s, id, hashed, now, username, password, mantra).reply.body.0)
  {}

  /** After a profile update of a stored user, `me` shows exactly what the update returned. */
  lemma UpdateThenMe(s: Store, id: UserId, username: Option<string>, mantra: Option<string>, bioPhoto: Option<string>)
    requires id in s.users
    requires UserRoutes.UpdateProfile(s, id, id, username, mantra, bioPhoto).reply.Success?
    ensures Me(UserRoutes.UpdateProfile(s, id, id, username, mantra, bioPhoto).store, Guard.Claims(id, username.value))
      == Ok(UserRoutes.UpdateProfile(s, id, id, username, mantra, bioPhoto).reply.body.value)
  {}
}

=== FILE: create_form.dfy ===
/**
 * The browser-side checks of the trip creation page: the submit handler's
 * chain of checks, which reports the first one that fails and sends the
 * request only when none does, and the checks on a picture dropped onto the
 * page. Dates are day numbers; a date field the browser cannot read is None,
 * and a comparison with it is false, as with JavaScript's invalid dates.
 * Likewise a capacity field that is not a number is None.
 */
module CreateForm {
  import opened Wrappers
  import opened Text

  /** The page state the submit handler reads. */
  datatype Draft = Draft(
    signedIn: bool,            // a current user and a non-empty token
    startDate: Option<int>,
    endDate: Option<int>,
    minParticipants: Option<int>,
    maxParticipants: Option<int>,
    coverPhoto: Option<string>)

  /** The four checks, in the order the handler runs them. */
  datatype FormError = NotSignedIn | EndBeforeStart | MaxBelowMin | NoCoverPhoto

  function Message(e: FormError): string {
    match e
    case NotSignedIn => "You must be logged in to create a trip."
    case EndBeforeStart => "End date cannot be before the start date."
    case MaxBelowMin => "Maximum participants cannot be less than minimum."
    case NoCoverPhoto => "Please upload a cover photo."
  }

  /** The position of each check in the chain. */
  function Rank(e: FormError): nat {
    match e
    case NotSignedIn => 0
    case EndBeforeStart => 1
    case MaxBelowMin => 2
    case NoCoverPhoto => 3
  }

  /** `a < b` on values that may be NaN or an invalid date: false when either is missing. */
  predicate Below(a: Option<int>, b: Option<int>) {
    a.Some? && b.Some? && a.value < b.value
  }

  /** Check `e`, considered on its own, refuses the draft. */
  predicate Fails(d: Draft, e: FormError) {
    match e
    case NotSignedIn => !d.signedIn
    case EndBeforeStart => Below(d.endDate, d.startDate)
    case MaxBelowMin => Below(d.maxParticipants, d.minParticipants)
    case NoCoverPhoto => d.coverPhoto.None? || d.coverPhoto.value == ""
  }

  /** What submitting does: show one error, or send the trip with its cover photo. */
  datatype Submission = Refused(error: FormError) | Send(coverPhoto: string)

  function Submit(d: Draft): (r: Submission)
    ensures r.Refused? <==> exists e :: Fails(d, e)
    ensures r.Refused? ==> Fails(d, r.error) && forall e :: Rank(e) < Rank(r.error) ==> !Fails(d, e)
    ensures r.Send? ==> d.coverPhoto == Some(r.coverPhoto)
  {
    if !d.signedIn then assert Fails(d, NotSignedIn); Refused(NotSignedIn)
    else if Below(d.endDate, d.startDate) then assert Fails(d, EndBeforeStart); Refused(EndBeforeStart)
    else if Below(d.maxParticipants, d.minParticipants) then assert Fails(d, MaxBelowMin); Refused(MaxBelowMin)
    else if d.coverPhoto.None? || d.coverPhoto.value == "" then assert Fails(d, NoCoverPhoto); Refused(NoCoverPhoto)
    else Send(d.coverPhoto.value)
  }

  /** Each check has its own message, so the text shown tells which check failed. */
  lemma MessageIdentifiesCheck(a: FormError, b: FormError)
    requires Message(a) == Message(b)
    ensures a == b
  {}

  /** The first failing check is the one reported, so the reported error is determined by the draft. */
  lemma FirstFailureReported(d: Draft, e: FormError)
    requires Fails(d, e) && forall x :: Rank(x) < Rank(e) ==> !Fails(d, x)
    ensures Submit(d) == Refused(e)
  {}

  /** Equal dates and equal capacities pass their checks; only strict inversions are refused. */
  lemma BoundariesPass(d: Draft, day: int, n: int)
    requires d.signedIn && d.coverPhoto.Some? && d.coverPhoto.value != ""
    requires d.startDate == Some(day) && d.endDate == Some(day)
    requires d.minParticipants == Some(n) && d.maxParticipants == Some(n)
    ensures Submit(d).Send?
  {}

  /** The upload limit: 10 MiB. */
  const MaxUploadBytes: nat := 10 * 1024 * 1024

  const ImageTypePrefix := "image/"

  /** A dropped file as the page sees it: its media type and size in bytes. */
  datatype DroppedFile = DroppedFile(mediaType: string, size: nat)

  datatype DropError = NotAnImage | TooLarge

  function DropMessage(e: DropError): string {
    match e
    case NotAnImage => "Please upload an image file (PNG, JPG, GIF)."
    case TooLarge => "File size must be less than 10MB."
  }

  /** What dropping files does: nothing, an error, or the first file is compressed and used. */
  datatype DropResult = Ignored | Rejected(error: DropError) | Process(file: DroppedFile)

  function Drop(files: seq<DroppedFile>): (r: DropResult)
    ensures r == Ignored <==> |files| == 0
    ensures r == Rejected(NotAnImage) <==> |files| > 0 && !StartsWith(files[0].mediaType, ImageTypePrefix)
    ensures r == Rejected(TooLarge) <==>
      |files| > 0 && StartsWith(files[0].mediaType, ImageTypePrefix) && files[0].size > MaxUploadBytes
    ensures r.Process? ==> |files| > 0 && r.file == files[0] && files[0].size <= MaxUploadBytes
  {
    if |files| == 0 then Ignored
    else
      var f := files[0];
      if !StartsWith(f.mediaType, ImageTypePrefix) then Rejected(NotAnImage)
      else if f.size > MaxUploadBytes then Rejected(TooLarge)
      else Process(f)
  }

  /** The two refusals of a dropped file show different texts. */
  lemma DropMessagesDiffer()
    ensures DropMessage(NotAnImage) != DropMessage(TooLarge)
  {}

  /** Files after the first are never looked at. */
  lemma OnlyFirstFileCounts(f: DroppedFile, rest: seq<DroppedFile>)
    ensures Drop([f] + rest) == Drop([f])
  {}

  /** A file of exactly the limit is accepted; one byte more is refused. */
  lemma ExactLimitPasses(mediaType: string)
    requires StartsWith(mediaType, ImageTypePrefix)
    ensures Drop([DroppedFile(mediaType, 10485760)]).Process?
    ensures Drop([DroppedFile(mediaType, 10485761)]) == Rejected(TooLarge)
  {}

  /** The type check comes first: a non-image is refused as such whatever its size. */
  lemma TypeCheckedBeforeSize(mediaType: string, size: nat)
    requires !StartsWith(mediaType, ImageTypePrefix)
    ensures Drop([DroppedFile(mediaType, size)]) == Rejected(NotAnImage)
  {}
}

=== FILE: data_url.dfy ===
/**
 * The two ways the server reads an uploaded image out of a data URL.
 * Trip cover photos must match `^data:(image/\w+);base64,(.+)$` as a whole;
 * profile photos are only checked for the prefix `data:image`, and their
 * payload is whatever lies between the first and second comma. The base64
 * decoding of the payload belongs to the runtime and is not modelled: the
 * stored photo keeps the payload text.
 */
module DataUrl {
  import opened Wrappers
  import opened Text
  import opened Model

  const CoverPrefix := "data:image/"
  const Base64Marker := ";base64,"
  const ProfilePrefix := "data:image"

  /** `\w`: an ASCII letter, digit or underscore. */
  predicate IsWordChar(c: char) {
    ('a' <= c <= 'z') || ('A' <= c <= 'Z') || ('0' <= c <= '9') || c == '_'
  }

  /** The characters `.` does not match without the `s` flag. */
  predicate IsLineTerminator(c: char) {
    c == '\n' || c == '\r' || c == '\U{2028}' || c == '\U{2029}'
  }

  /** Length of the longest run of word characters at the start of `s`. */
  function WordRun(s: string): (n: nat)
    ensures n <= |s|
    ensures forall k :: 0 <= k < n ==> IsWordChar(s[k])
    ensures n < |s| ==> !IsWordChar(s[n])
  {
    if |s| > 0 && IsWordChar(s[0]) then 1 + WordRun(s[1..]) else 0
  }

  /** The two capture groups: the media type (`image/...`) and the base64 payload. */
  datatype Captures = Captures(mediaType: string, data: string)

  /** `s` is `data:image/<sub>;base64,<data>` with a non-empty `\w+` subtype and a non-empty single-line payload. */
  ghost predicate Shaped(s: string, sub: string, data: string) {
    && |sub| >= 1 && (forall i :: 0 <= i < |sub| ==> IsWordChar(sub[i]))
    && |data| >= 1 && (forall i :: 0 <= i < |data| ==> !IsLineTerminator(data[i]))
    && s == CoverPrefix + sub + Base64Marker + data
  }

  /** Cutting `s` after the prefix, after `n` more characters and after the marker, and gluing the pieces back. */
  lemma Reassemble(s: string, n: nat)
    requires StartsWith(s, CoverPrefix)
    requires n <= |s| - |CoverPrefix|
    requires StartsWith(s[|CoverPrefix|..][n..], Base64Marker)
    ensures s == CoverPrefix + s[|CoverPrefix|..][..n] + Base64Marker + s[|CoverPrefix|..][n..][|Base64Marker|..]
  {
    var rest := s[|CoverPrefix|..];
    var tail := rest[n..];
    assert s == s[..|CoverPrefix|] + rest;
    assert rest == rest[..n] + tail;
    assert tail == tail[..|Base64Marker|] + tail[|Base64Marker|..];
  }

  /** `s.match(/^data:(image\/\w+);base64,(.+)$/)`. */
  function MatchCover(s: string): (m: Option<Captures>)
    ensures m.Some? ==> StartsWith(m.value.mediaType, "image/")
    ensures m.Some? ==> Shaped(s, m.value.mediaType[6..], m.value.data)
  {
    if !StartsWith(s, CoverPrefix) then None
    else
      var rest := s[|CoverPrefix|..];
      var n := WordRun(rest);
      var tail := rest[n..];
      if n == 0 || !StartsWith(tail, Base64Marker) then None
      else
        var data := tail[|Base64Marker|..];
        if |data| == 0 || exists i :: 0 <= i < |data| && IsLineTerminator(data[i]) then None
        else
          Reassemble(s, n);
          var m := Captures("image/" + rest[..n], data);
          assert m.mediaType[6..] == rest[..n];
          Some(m)
  }

  /** Every string of the pattern's shape matches, with exactly its subtype and payload captured. */
  lemma {:induction false} MatchCoverComplete(s: string, sub: string, data: string)
    requires Shaped(s, sub, data)
    ensures MatchCover(s) == Some(Captures("image/" + sub, data))
  {
    var rest := s[|CoverPrefix|..];
    assert rest == sub + Base64Marker + data;
    assert rest[|sub|] == ';';
    var n := WordRun(rest);
    assert n == |sub|;
    assert rest[..n] == sub;
    assert rest[n..] == Base64Marker + data;
  }

  /** A media type outside `\w+`, such as `svg+xml`, is refused whatever the payload. */
  lemma SvgCoverRefused(data: string)
    ensures MatchCover(CoverPrefix + "svg+xml" + Base64Marker + data).None?
  {
    var s := CoverPrefix + "svg+xml" + Base64Marker + data;
    var rest := s[|CoverPrefix|..];
    assert rest == "svg+xml" + Base64Marker + data;
    var n := WordRun(rest);
    assert rest[3] == '+';
    assert n == 3;
    assert rest[n..][0] == '+';
  }

  /** What an update request does to the stored profile photo. */
  datatype PhotoChange =
    | Keep               // the photo column is left as it was
    | Replace(photo: Photo)
    | Crash              // the payload is undefined and decoding it throws

  /**
   * `if (bioPhoto && bioPhoto.startsWith("data:image"))` then decode
   * `bioPhoto.split(",")[1]`; anything else keeps the stored photo.
   */
  function ProfilePhotoChange(bioPhoto: Option<string>): (c: PhotoChange)
    ensures bioPhoto.None? || !StartsWith(bioPhoto.value, ProfilePrefix) ==> c == Keep
    ensures c.Replace? <==> bioPhoto.Some? && StartsWith(bioPhoto.value, ProfilePrefix) && ',' in bioPhoto.value
    ensures c.Replace? ==> ',' !in c.photo.encoded
    ensures c.Replace? ==> exists head ::
      ',' !in head &&
      (bioPhoto.value == head + "," + c.photo.encoded || StartsWith(bioPhoto.value, head + "," + c.photo.encoded + ","))
    ensures c == Crash <==> bioPhoto.Some? && StartsWith(bioPhoto.value, ProfilePrefix) && ',' !in bioPhoto.value
  {
    if bioPhoto.None? || bioPhoto.value == "" || !StartsWith(bioPhoto.value, ProfilePrefix) then Keep
    else
      match SecondField(bioPhoto.value, ',')
      case None => Crash
      case Some(payload) => Replace(Photo(payload))
  }

  /** The payload is the field after the first comma; anything after a second comma is dropped. */
  lemma LaterCommasIgnored(head: string, payload: string, tail: string)
    requires StartsWith(head, ProfilePrefix) && ',' !in head && ',' !in payload
    ensures ProfilePhotoChange(Some(head + "," + payload + "," + tail)) == Replace(Photo(payload))
  {
    var s := head + "," + payload + "," + tail;
    SecondFieldOfTriple(head, payload, tail, ',');
    assert s[..|ProfilePrefix|] == head[..|ProfilePrefix|];
  }

  /**
   * For a well-formed image data URL whose payload has no comma (true of any
   * base64 text), the profile rule and the cover pattern extract the same payload.
   */
  lemma ProfileAndCoverAgree(s: string, sub: string, data: string)
    requires Shaped(s, sub, data) && ',' !in data
    ensures MatchCover(s) == Some(Captures("image/" + sub, data))
    ensures ProfilePhotoChange(Some(s)) == Replace(Photo(data))
  {
    MatchCoverComplete(s, sub, data);
    var head := CoverPrefix + sub + ";base64";
    assert s == head + "," + data;
    CommaFreeHead(sub);
    SecondFieldOfPair(head, data, ',');
    CoverIsProfile(s);
  }

  /** The text before the comma of a cover data URL has no comma when the subtype is made of word characters. */
  lemma CommaFreeHead(sub: string)
    requires forall i :: 0 <= i < |sub| ==> IsWordChar(sub[i])
    ensures ',' !in CoverPrefix + sub + ";base64"
  {
    var head := CoverPrefix + sub + ";base64";
    forall i | 0 <= i < |head| ensures head[i] != ',' {
      if |CoverPrefix| <= i < |CoverPrefix| + |sub| {
        assert head[i] == sub[i - |CoverPrefix|];
      }
    }
  }

  /** Every cover data URL passes the profile rule's prefix test. */
  lemma CoverIsProfile(s: string)
    requires StartsWith(s, CoverPrefix)
    ensures StartsWith(s, ProfilePrefix)
  {
    assert s[..|ProfilePrefix|] == CoverPrefix[..|ProfilePrefix|];
  }
}

=== FILE: guard.dfy ===
/**
 * The bearer-token guard that runs before every protected handler. The
 * token is the second space-separated word of the Authorization header (the
 * first word is never looked at); a missing token answers 401, a token the
 * signature check refuses answers 403, and otherwise the decoded claims are
 * handed to the protected handler, which runs once. Signature and expiry
 * checking belong to the token library and are a parameter here.
 */
module Guard {
  import opened Wrappers
  import opened Text
  import opened Model

  /** The payload signed into every token: the user's id and username. */
  datatype Claims = Claims(id: UserId, username: string)

  /** The token library's verdict on a token: its claims, or None when it is forged or expired. */
  type Verifier = string -> Option<Claims>

  /** `authHeader && authHeader.split(' ')[1]`, with JavaScript's falsy values (absent, "") as None. */
  function TokenOf(header: Option<string>): (tok: Option<string>)
    ensures header.None? ==> tok.None?
    ensures header.Some? && ' ' !in header.value ==> tok.None?
    ensures tok.Some? ==> tok.value != "" && ' ' !in tok.value
    ensures tok.Some? ==> exists scheme ::
      ' ' !in scheme &&
      (header == Some(scheme + " " + tok.value) || StartsWith(header.value, scheme + " " + tok.value + " "))
  {
    if header.None? || header.value == "" then None
    else
      match SecondField(header.value, ' ')
      case None => None
      case Some(t) => if t == "" then None else Some(t)
  }

  /** The first word is not checked: any scheme followed by one space and a token yields that token. */
  lemma AnySchemeYieldsToken(scheme: string, tok: string)
    requires ' ' !in scheme && ' ' !in tok && tok != ""
    ensures TokenOf(Some(scheme + " " + tok)) == Some(tok)
  {
    SecondFieldOfPair(scheme, tok, ' ');
  }

  /** Only the second word is the token: later words are ignored, whatever they hold. */
  lemma SecondWordYieldsToken(scheme: string, tok: string, tail: string)
    requires ' ' !in scheme && ' ' !in tok && tok != ""
    ensures TokenOf(Some(scheme + " " + tok + " " + tail)) == Some(tok)
  {
    SecondFieldOfTriple(scheme, tok, tail, ' ');
  }

  /** A header whose second word is empty ("Bearer " or two spaces in a row) carries no token. */
  lemma EmptySecondWordRefused(scheme: string, rest: string)
    requires ' ' !in scheme
    requires rest == "" || rest[0] == ' '
    ensures TokenOf(Some(scheme + " " + rest)).None?
  {
    FirstSeparator(scheme, rest, ' ');
    assert IndexOf(rest, ' ') == 0;
    assert Split(rest, ' ')[0] == "";
  }

  /** Whether the request reaches the protected handler, and as whom. */
  function Authenticate(header: Option<string>, verify: Verifier): (r: Result<Claims, HttpError>)
    ensures TokenOf(header).None? <==> r == Err(Unauthorized)
    ensures r == Err(Forbidden) <==> TokenOf(header).Some? && verify(TokenOf(header).value).None?
    ensures r.Ok? <==> TokenOf(header).Some? && verify(TokenOf(header).value).Some?
    ensures r.Ok? ==> verify(TokenOf(header).value) == Some(r.value)
    ensures r.Err? ==> r.error in {Unauthorized, Forbidden}
  {
    match TokenOf(header)
    case None => Err(Unauthorized)
    case Some(tok) =>
      match verify(tok)
      case None => Err(Forbidden)
      case Some(claims) => Ok(claims)
  }

  /**
   * A protected route: the guard, then the handler with the caller's claims.
   * A refused request leaves the store as it was and never runs the handler.
   */
  function Protected<T>(s: Store, header: Option<string>, verify: Verifier, handler: Claims -> Outcome<T>): (o: Outcome<T>)
    ensures TokenOf(header).None? ==> o == Outcome(s, Failure(Unauthorized))
    ensures TokenOf(header).Some? && verify(TokenOf(header).value).None? ==> o == Outcome(s, Failure(Forbidden))
    ensures TokenOf(header).Some? && verify(TokenOf(header).value).Some? ==>
      o == handler(verify(TokenOf(header).value).value)
  {
    match Authenticate(header, verify)
    case Err(e) => Outcome(s, Failure(e))
    case Ok(claims) => handler(claims)
  }

  /** A refused request answers the same whatever handler it guards: the handler is not reached. */
  lemma RefusedNeverReachesHandler<T>(s: Store, header: Option<string>, verify: Verifier,
                                      h1: Claims -> Outcome<T>, h2: Claims -> Outcome<T>)
    requires Authenticate(header, verify).Err?
    ensures Protected(s, header, verify, h1) == Protected(s, header, verify, h2)
    ensures Protected(s, header, verify, h1).store == s
  {}
}

=== FILE: home_query.dfy ===
/**
 * The query string the home page sends to `GET /trips`: a search term when
 * one is typed, the chosen status unless "All" is chosen, and
 * `hasSlots=true` when "Available" is chosen. It is linked here with the
 * server side: the parameters read back into the list filter, and the trips
 * listed are exactly those the page's three controls select.
 */
module HomeQuery {
  import opened Wrappers
  import opened Model
  import TripListing

  /** The status drop-down: every state, or "All". */
  datatype StatusChoice = All | Only(status: Status)

  /** The value of the participant drop-down that asks for free places. */
  const Available := "Available"

  type Param = (string, string)

  /** `URLSearchParams` after the three `set` calls, in insertion order. */
  function QueryParams(searchTerm: string, status: StatusChoice, participantFilter: string): (ps: seq<Param>)
    ensures forall i, j :: 0 <= i < j < |ps| ==> ps[i].0 != ps[j].0
    ensures forall p :: p in ps ==> p.0 in {"search", "status", "hasSlots"}
    ensures forall v :: ("search", v) in ps <==> searchTerm != "" && v == searchTerm
    ensures forall v :: ("status", v) in ps <==> status.Only? && v == StatusName(status.status)
    ensures forall v :: ("hasSlots", v) in ps <==> participantFilter == Available && v == "true"
  {
    (if searchTerm != "" then [("search", searchTerm)] else [])
    + (if status.Only? then [("status", StatusName(status.status))] else [])
    + (if participantFilter == Available then [("hasSlots", "true")] else [])
  }

  /** How the server reads one parameter: its value, or "" when it is absent. */
  function Lookup(ps: seq<Param>, key: string): (v: string)
    ensures v != "" ==> (key, v) in ps
    ensures (forall w :: (key, w) !in ps) ==> v == ""
    ensures forall w :: (key, w) in ps && (forall x :: (key, x) in ps ==> x == w) ==> v == w
  {
    if |ps| == 0 then ""
    else if ps[0].0 == key then ps[0].1
    else Lookup(ps[1..], key)
  }

  /** The filter the server builds from the query string. */
  function ReadQuery(ps: seq<Param>): TripListing.ListQuery {
    TripListing.ListQuery(Lookup(ps, "search"), Lookup(ps, "status"), Lookup(ps, "hasSlots"))
  }

  /** The parameters the page builds read back as exactly the three chosen filters. */
  lemma {:induction false} QueryRoundTrip(searchTerm: string, status: StatusChoice, participantFilter: string)
    ensures ReadQuery(QueryParams(searchTerm, status, participantFilter)) ==
      TripListing.ListQuery(searchTerm,
                            if status.Only? then StatusName(status.status) else "",
                            if participantFilter == Available then "true" else "")
  {
    var ps := QueryParams(searchTerm, status, participantFilter);
    assert forall w :: ("search", w) in ps ==> w == searchTerm;
    assert status.Only? ==> forall w :: ("status", w) in ps ==> w == StatusName(status.status);
    assert forall w :: ("hasSlots", w) in ps ==> w == "true";
    if searchTerm != "" { assert ("search", searchTerm) in ps; }
    if status.Only? { assert ("status", StatusName(status.status)) in ps; }
    if participantFilter == Available { assert ("hasSlots", "true") in ps; }
  }

  /**
   * A trip with an existing host is listed for the page's choices exactly
   * when it matches the typed term, is in the chosen state, and, when
   * "Available" is chosen, is Upcoming with a free place.
   */
  lemma ListedForChoices(s: Store, searchTerm: string, status: StatusChoice, participantFilter: string, id: TripId)
    requires id in s.trips && s.trips[id].hostId in s.users
    ensures TripListing.Listed(s, ReadQuery(QueryParams(searchTerm, status, participantFilter)), id) <==>
      && TripListing.MatchesSearch(s.trips[id], searchTerm)
      && (status.Only? ==> s.trips[id].status == status.status)
      && (participantFilter == Available ==>
            s.trips[id].status == Upcoming && Count(s, id) < s.trips[id].maxParticipants)
  {
    QueryRoundTrip(searchTerm, status, participantFilter);
    if status.Only? {
      ParseStatusName(status.status);
      ParseStatusName(s.trips[id].status);
    }
  }
}

=== FILE: image.dfy ===
/**
 * The size a picture is scaled to before it is re-encoded for upload. A
 * landscape picture (wider than tall) is scaled down to the maximum width
 * when it is wider than that; any other picture is scaled down to the
 * maximum height when it is taller than that. The other side keeps the
 * aspect ratio and is rounded to the nearest pixel, halves rounding up.
 * The canvas, the reader and the re-encoding are not modelled.
 */
module ImageFit {

  /** `Math.round(n / d)` for a non-negative quotient: the nearest integer, halves up. */
  function RoundDiv(n: nat, d: nat): (q: nat)
    requires d > 0
    ensures d * (2 * q - 1) <= 2 * n < d * (2 * q + 1)
  {
    var q := (2 * n + d) / (2 * d);
    assert 2 * d * q <= 2 * n + d < 2 * d * q + 2 * d;
    q
  }

  /** Multiplying by a positive factor keeps a strict order. */
  lemma MulStrict(a: nat, b: nat, c: nat)
    requires a < b && c > 0
    ensures a * c < b * c
  {
    assert b * c == a * c + (b - a) * c;
  }

  /** A quotient below `m` rounds to at most `m`. */
  lemma RoundBelow(n: nat, d: nat, m: nat)
    requires d > 0 && n < d * m
    ensures RoundDiv(n, d) <= m
  {
    var q := RoundDiv(n, d);
    if q > m {
      MulStrict(2 * m, 2 * q - 1, d);
    }
  }

  /** The drawn width and height of a `w` by `h` picture under the bounds `maxW` and `maxH`. */
  function Fit(w: nat, h: nat, maxW: nat, maxH: nat): (r: (nat, nat))
    ensures w > h && w > maxW ==> r == (maxW, RoundDiv(h * maxW, w))
    ensures w <= h && h > maxH ==> r == (RoundDiv(w * maxH, h), maxH)
    ensures (w > h ==> w <= maxW) && (w <= h ==> h <= maxH) ==> r == (w, h)
  {
    if w > h then
      if w > maxW then (maxW, RoundDiv(h * maxW, w)) else (w, h)
    else
      if h > maxH then (RoundDiv(w * maxH, h), maxH) else (w, h)
  }

  /** Scaling only ever shrinks: neither side grows. */
  lemma FitNeverEnlarges(w: nat, h: nat, maxW: nat, maxH: nat)
    ensures Fit(w, h, maxW, maxH).0 <= w && Fit(w, h, maxW, maxH).1 <= h
  {
    if w > h && w > maxW && h > 0 {
      MulStrict(maxW, w, h);
      RoundBelow(h * maxW, w, h);
    } else if w <= h && h > maxH && w > 0 {
      MulStrict(maxH, h, w);
      RoundBelow(w * maxH, h, w);
    }
  }

  /** An exact quotient rounds to itself. */
  lemma RoundExact(k: nat, d: nat)
    requires d > 0
    ensures RoundDiv(k * d, d) == k
  {
    var q := RoundDiv(k * d, d);
    assert 2 * (k * d) == (2 * k) * d;
    if q > k {
      MulStrict(2 * k, 2 * q - 1, d);
    } else if q < k {
      MulStrict(2 * q + 1, 2 * k, d);
    }
  }

  /** With one bound `m` for both sides, as the trip form uses, the result fits in an `m` by `m` square. */
  lemma FitSquare(w: nat, h: nat, m: nat)
    ensures Fit(w, h, m, m).0 <= m && Fit(w, h, m, m).1 <= m
  {
    if w > h && w > m {
      assert Fit(w, h, m, m) == (m, RoundDiv(h * m, w));
      if m == 0 {
        RoundExact(0, w);
      } else {
        MulStrict(h, w, m);
        assert h * m < w * m && w * m == m * w;
        RoundBelow(h * m, w, m);
      }
    } else if w <= h && h > m {
      assert Fit(w, h, m, m) == (RoundDiv(w * m, h), m);
      if m == 0 {
        RoundExact(0, h);
      } else if w == h {
        RoundExact(m, h);
        assert m * h == w * m;
      } else {
        MulStrict(w, h, m);
        assert w * m < h * m && h * m == m * h;
        RoundBelow(w * m, h, m);
      }
    }
  }

  /** A landscape picture within the width bound is kept as it is, however far it exceeds the height bound. */
  lemma LandscapeIgnoresHeightBound(w: nat, h: nat, maxW: nat, maxH: nat)
    requires h < w <= maxW
    ensures Fit(w, h, maxW, maxH) == (w, h)
  {}
}

=== FILE: model.dfy ===
/**
 * The records of the trip marketplace and the store that holds them: the
 * four tables `users`, `trips`, `trip_participants` and `reviews`, plus the
 * trip status enumeration and the HTTP-style outcome every handler returns.
 */
module Model {
  import opened Wrappers

  /** The four trip states. */
  datatype Status = Upcoming | Full | Cancelled | Concluded

  /** The text stored in the `status` column for each state. */
  function StatusName(st: Status): string {
    match st
    case Upcoming => "Upcoming"
    case Full => "Full"
    case Cancelled => "Cancelled"
    case Concluded => "Concluded"
  }

  /** Reads a status column value back; any other text names no state. */
  function ParseStatus(text: string): (r: Option<Status>)
    ensures r.Some? ==> StatusName(r.value) == text
  {
    if text == "Upcoming" then Some(Upcoming)
    else if text == "Full" then Some(Full)
    else if text == "Cancelled" then Some(Cancelled)
    else if text == "Concluded" then Some(Concluded)
    else None
  }

  /** Every state's name reads back as that state, so names are distinct. */
  lemma ParseStatusName(st: Status)
    ensures ParseStatus(StatusName(st)) == Some(st)
  {}

  /** Row ids are UUIDs; the model only needs them to be distinguishable. */
  type UserId = int
  type TripId = int
  type ReviewId = int

  /** The stored password verifier produced by the password-hashing library. */
  type Digest = string

  /** Binary image content; the bytes are the base64 decoding of `encoded`, which is not modelled. */
  datatype Photo = Photo(encoded: string)

  datatype User = User(
    username: string,
    password: Digest,
    mantra: string,
    bioPhoto: Option<Photo>,
    createdAt: int)

  /** A trip row. Dates are day numbers; `coverPhoto` mirrors the column, which the schema declares NOT NULL. */
  datatype Trip = Trip(
    title: string,
    description: string,
    coverPhoto: Option<Photo>,
    destination: string,
    startDate: int,
    endDate: int,
    minParticipants: int,
    maxParticipants: int,
    hostId: UserId,
    status: Status,
    createdAt: int)

  /** A review row; the author reference becomes NULL when the author is deleted. */
  datatype Review = Review(
    tripId: TripId,
    authorId: Option<UserId>,
    rating: int,
    comment: string,
    createdAt: int)

  /** The whole database: three keyed tables and the (trip, user) participation relation. */
  datatype Store = Store(
    users: map<UserId, User>,
    trips: map<TripId, Trip>,
    participants: set<(TripId, UserId)>,
    reviews: map<ReviewId, Review>)

  /** The users with a participation row for trip `t` (host included when present). */
  function Members(s: Store, t: TripId): (m: set<UserId>)
    ensures forall u :: u in m <==> (t, u) in s.participants
  {
    set p | p in s.participants && p.0 == t :: p.1
  }

  /** `SELECT COUNT(*) FROM trip_participants WHERE "tripId" = t`. */
  function Count(s: Store, t: TripId): nat {
    |Members(s, t)|
  }

  /** The error statuses the handlers answer with. */
  datatype HttpError = BadRequest | Unauthorized | Forbidden | NotFound | Conflict | ServerError

  /** The status of each error: a client or server error status. */
  function Code(e: HttpError): (c: int)
    ensures 400 <= c <= 599
  {
    match e
    case BadRequest => 400
    case Unauthorized => 401
    case Forbidden => 403
    case NotFound => 404
    case Conflict => 409
    case ServerError => 500
  }

  /** No two errors share a status, so the status alone tells the client which refusal it got. */
  lemma CodesDistinct(a: HttpError, b: HttpError)
    requires Code(a) == Code(b)
    ensures a == b
  {}

  /** What a handler sends back: a success status with a body, or an error status. */
  datatype Reply<+T> = Success(code: int, body: T) | Failure(error: HttpError)

  /** The store after the handler ran, together with its reply. */
  datatype Outcome<+T> = Outcome(store: Store, reply: Reply<T>)

  /** Public fields of a user, as the handlers return them (never the password). */
  datatype Account = Account(id: UserId, username: string, mantra: string, bioPhoto: Option<Photo>)

  function AccountOf(s: Store, id: UserId): Account
    requires id in s.users
  {
    var u := s.users[id];
    Account(id, u.username, u.mantra, u.bioPhoto)
  }
}

=== FILE: ordering.dfy ===
/**
 * `ORDER BY <key> DESC` over the rows a query selected. Rows with equal keys
 * may come out in any order, so the contract fixes only what the database
 * promises: every selected row exactly once, largest key first.
 */
module Ordering {

  predicate DescendingBy<K>(xs: seq<K>, key: K -> int) {
    forall i, j :: 0 <= i < j < |xs| ==> key(xs[i]) >= key(xs[j])
  }

  predicate Distinct<K(==,!new)>(xs: seq<K>) {
    forall i, j :: 0 <= i < j < |xs| ==> xs[i] != xs[j]
  }

  /** Put `x` in front of the first element whose key does not exceed its own. */
  function InsertDescending<K(==,!new)>(xs: seq<K>, x: K, key: K -> int): (r: seq<K>)
    requires DescendingBy(xs, key)
    ensures DescendingBy(r, key)
    ensures |r| == |xs| + 1
    ensures forall k :: k in r <==> k in xs || k == x
    ensures Distinct(xs) && x !in xs ==> Distinct(r)
    decreases |xs|
  {
    if |xs| == 0 then [x]
    else if key(x) >= key(xs[0]) then [x] + xs
    else
      var tail := InsertDescending(xs[1..], x, key);
      var r := [xs[0]] + tail;
      forall j | 0 <= j < |tail| ensures key(tail[j]) <= key(xs[0]) && (Distinct(xs) && x !in xs ==> tail[j] != xs[0]) {
        assert tail[j] in tail;
        if tail[j] != x {
          var m :| 0 <= m < |xs[1..]| && xs[1..][m] == tail[j];
          assert xs[m + 1] == tail[j];
        }
      }
      assert forall i, j :: 0 < i < j < |r| ==> r[i] == tail[i - 1] && r[j] == tail[j - 1];
      r
  }

  /** The rows of `items`, each once, ordered by descending `key`. */
  method SortDescending<K(==,!new)>(items: set<K>, key: K -> int) returns (r: seq<K>)
    ensures DescendingBy(r, key)
    ensures Distinct(r)
    ensures forall k :: k in r <==> k in items
    ensures |r| == |items|
  {
    r := [];
    var rest := items;
    while rest != {}
      invariant rest <= items
      invariant DescendingBy(r, key)
      invariant Distinct(r)
      invariant forall k :: k in r <==> k in items && k !in rest
      invariant |r| + |rest| == |items|
      decreases |rest|
    {
      var x :| x in rest;
      r := InsertDescending(r, x, key);
      rest := rest - {x};
    }
  }
}

=== FILE: schema.dfy ===
/**
 * The table definitions created at start-up: keys, uniqueness, CHECK and
 * length constraints, NOT NULL columns and foreign keys with their delete
 * rules. `Valid` is the invariant these constraints keep; every write goes
 * through one of the primitives below, which refuse a row that breaks a
 * constraint (the database raises an error, the handler answers 500) and
 * otherwise change exactly the targeted rows. Text assigned to a
 * `VARCHAR(n)` column follows PostgreSQL's rule: longer text is cut to `n`
 * characters when only spaces are cut off, and refused otherwise.
 */
module Schema {
  import opened Wrappers
  import opened Text
  import opened Model

  const UsernameMax: nat := 50
  const MantraMax: nat := 128
  const TitleMax: nat := 128
  const DescriptionMax: nat := 255
  const DestinationMax: nat := 100
  const RatingMin: int := 1
  const RatingMax: int := 5

  /** The kind of constraint a refused write broke. */
  datatype Violation = PrimaryKey | Unique | ForeignKey | NotNull | Check | TooLong

  /** Nothing but spaces. */
  predicate AllSpaces(x: string) {
    forall i :: 0 <= i < |x| ==> x[i] == ' '
  }

  /**
   * Assigning `x` to a `VARCHAR(n)` column: text that fits is stored as it
   * is; longer text is cut to `n` characters when all it loses is spaces,
   * and refused otherwise.
   */
  function Varchar(x: string, n: nat): (r: Option<string>)
    ensures r.Some? <==> |x| <= n || forall i :: n <= i < |x| ==> x[i] == ' '
    ensures r.Some? ==> |r.value| == (if |x| <= n then |x| else n)
    ensures r.Some? ==> StartsWith(x, r.value) && AllSpaces(x[|r.value|..])
  {
    if |x| <= n then Some(x)
    else if AllSpaces(x[n..]) then
      assert x == x[..n] + x[n..];
      Some(x[..n])
    else None
  }

  /** A stored value is stored again unchanged, and text that fits is never altered. */
  lemma VarcharStable(x: string, n: nat)
    requires Varchar(x, n).Some?
    ensures Varchar(Varchar(x, n).value, n) == Varchar(x, n)
    ensures |x| <= n ==> Varchar(x, n).value == x
  {
    var v := Varchar(x, n).value;
    assert v == x[..|v|];
  }

  /** Exactly one excess character: a space is cut off, anything else is refused. */
  lemma OneExcessCharacter(x: string, n: nat, c: char)
    requires |x| == n
    ensures Varchar(x + [c], n) == (if c == ' ' then Some(x) else None)
  {
    var y := x + [c];
    assert y[n] == c;
    if c == ' ' {
      assert y[..n] == x;
    }
  }

  predicate UserRowOk(u: User) {
    |u.username| <= UsernameMax && |u.mantra| <= MantraMax
  }

  /** The users row as stored, its VARCHAR columns coerced; None when a column refuses its value. */
  function StoredUser(u: User): (r: Option<User>)
    ensures r.Some? <==> Varchar(u.username, UsernameMax).Some? && Varchar(u.mantra, MantraMax).Some?
    ensures r.Some? ==> UserRowOk(r.value)
    ensures r.Some? ==> r.value == u.(username := Varchar(u.username, UsernameMax).value,
                                      mantra := Varchar(u.mantra, MantraMax).value)
    ensures UserRowOk(u) ==> r == Some(u)
  {
    match (Varchar(u.username, UsernameMax), Varchar(u.mantra, MantraMax))
    case (Some(name), Some(motto)) => Some(u.(username := name, mantra := motto))
    case _ => None
  }

  predicate TripRowOk(t: Trip) {
    && |t.title| <= TitleMax
    && |t.description| <= DescriptionMax
    && t.coverPhoto.Some?
    && |t.destination| <= DestinationMax
  }

  /** The trips row as stored, its VARCHAR columns coerced; None when a column refuses its value. */
  function StoredTrip(t: Trip): (r: Option<Trip>)
    ensures r.Some? <==>
      && Varchar(t.title, TitleMax).Some?
      && Varchar(t.description, DescriptionMax).Some?
      && Varchar(t.destination, DestinationMax).Some?
    ensures r.Some? && t.coverPhoto.Some? ==> TripRowOk(r.value)
    ensures r.Some? ==> r.value == t.(title := Varchar(t.title, TitleMax).value,
                                      description := Varchar(t.description, DescriptionMax).value,
                                      destination := Varchar(t.destination, DestinationMax).value)
    ensures TripRowOk(t) ==> r == Some(t)
  {
    match (Varchar(t.title, TitleMax), Varchar(t.description, DescriptionMax), Varchar(t.destination, DestinationMax))
    case (Some(title), Some(description), Some(destination)) =>
      Some(t.(title := title, description := description, destination := destination))
    case _ => None
  }

  predicate ReviewRowOk(r: Review) {
    RatingMin <= r.rating <= RatingMax
  }

  /** Some stored user already has this username. */
  predicate UsernameTaken(s: Store, name: string) {
    exists id :: id in s.users && s.users[id].username == name
  }

  predicate UniqueUsernames(s: Store) {
    forall a, b :: a in s.users && b in s.users && s.users[a].username == s.users[b].username ==> a == b
  }

  predicate TripRefsOk(s: Store, t: Trip) {
    t.hostId in s.users
  }

  predicate ReviewRefsOk(s: Store, r: Review) {
    r.tripId in s.trips && (r.authorId.Some? ==> r.authorId.value in s.users)
  }

  /** Every constraint of the four tables holds. */
  predicate Valid(s: Store) {
    && (forall id :: id in s.users ==> UserRowOk(s.users[id]))
    && UniqueUsernames(s)
    && (forall id :: id in s.trips ==> TripRowOk(s.trips[id]) && TripRefsOk(s, s.trips[id]))
    && (forall p :: p in s.participants ==> p.0 in s.trips && p.1 in s.users)
    && (forall id :: id in s.reviews ==> ReviewRowOk(s.reviews[id]) && ReviewRefsOk(s, s.reviews[id]))
  }

  /** A store with no rows at all. */
  function Empty(): (s: Store)
    ensures Valid(s)
    ensures s.users == map[] && s.trips == map[] && s.participants == {} && s.reviews == map[]
  {
    Store(map[], map[], {}, map[])
  }

  /** `INSERT INTO users`: the row is stored with its VARCHAR columns coerced. */
  function InsertUser(s: Store, id: UserId, u: User): (r: Result<Store, Violation>)
    ensures r.Ok? <==> id !in s.users && StoredUser(u).Some? && !UsernameTaken(s, StoredUser(u).value.username)
    ensures r.Ok? ==> r.value == s.(users := s.users[id := StoredUser(u).value])
    ensures Valid(s) && r.Ok? ==> Valid(r.value)
  {
    if id in s.users then Err(PrimaryKey)
    else
      match StoredUser(u)
      case None => Err(TooLong)
      case Some(row) =>
        if UsernameTaken(s, row.username) then Err(Unique)
        else Ok(s.(users := s.users[id := row]))
  }

  /** `UPDATE users ... WHERE id = $id`: no row matches an absent id, and nothing changes. */
  function UpdateUser(s: Store, id: UserId, u: User): (r: Result<Store, Violation>)
    ensures id !in s.users ==> r == Ok(s)
    ensures id in s.users ==>
      (r.Ok? <==> StoredUser(u).Some? &&
                  forall o :: o in s.users && o != id ==> s.users[o].username != StoredUser(u).value.username)
    ensures id in s.users && r.Ok? ==> r.value == s.(users := s.users[id := StoredUser(u).value])
    ensures Valid(s) && r.Ok? ==> Valid(r.value)
  {
    if id !in s.users then Ok(s)
    else
      match StoredUser(u)
      case None => Err(TooLong)
      case Some(row) =>
        if exists o :: o in s.users && o != id && s.users[o].username == row.username then Err(Unique)
        else Ok(s.(users := s.users[id := row]))
  }

  /** `INSERT INTO trips`: the row is stored with its VARCHAR columns coerced. */
  function InsertTrip(s: Store, id: TripId, t: Trip): (r: Result<Store, Violation>)
    ensures r.Ok? <==> id !in s.trips && t.coverPhoto.Some? && StoredTrip(t).Some? && t.hostId in s.users
    ensures t.coverPhoto.None? ==> r.Err?
    ensures r.Ok? ==> r.value == s.(trips := s.trips[id := StoredTrip(t).value])
    ensures Valid(s) && r.Ok? ==> Valid(r.value)
  {
    if id in s.trips then Err(PrimaryKey)
    else if t.coverPhoto.None? then Err(NotNull)
    else
      match StoredTrip(t)
      case None => Err(TooLong)
      case Some(row) =>
        if t.hostId !in s.users then Err(ForeignKey)
        else Ok(s.(trips := s.trips[id := row]))
  }

  /** `UPDATE trips SET ... WHERE id = $id`, replacing the whole row. */
  function UpdateTrip(s: Store, id: TripId, t: Trip): (r: Result<Store, Violation>)
    ensures id !in s.trips ==> r == Ok(s)
    ensures id in s.trips ==> (r.Ok? <==> t.coverPhoto.Some? && StoredTrip(t).Some? && t.hostId in s.users)
    ensures id in s.trips && r.Ok? ==> r.value == s.(trips := s.trips[id := StoredTrip(t).value])
    ensures Valid(s) && r.Ok? ==> Valid(r.value)
  {
    if id !in s.trips then Ok(s)
    else if t.coverPhoto.None? then Err(NotNull)
    else
      match StoredTrip(t)
      case None => Err(TooLong)
      case Some(row) =>
        if t.hostId !in s.users then Err(ForeignKey)
        else Ok(s.(trips := s.trips[id := row]))
  }

  /** `UPDATE trips SET status = st WHERE id = t`; the status column never breaks a constraint. */
  function SetStatus(s: Store, t: TripId, st: Status): (r: Store)
    ensures r.users == s.users && r.participants == s.participants && r.reviews == s.reviews
    ensures r.trips.Keys == s.trips.Keys
    ensures t in s.trips ==> r.trips[t] == s.trips[t].(status := st)
    ensures forall o :: o in s.trips && o != t ==> r.trips[o] == s.trips[o]
    ensures Valid(s) ==> Valid(r)
  {
    if t in s.trips then s.(trips := s.trips[t := s.trips[t].(status := st)]) else s
  }

  /** `INSERT INTO trip_participants`: the (trip, user) pair is the primary key. */
  function InsertParticipant(s: Store, t: TripId, u: UserId): (r: Result<Store, Violation>)
    ensures r.Ok? <==> (t, u) !in s.participants && t in s.trips && u in s.users
    ensures r.Ok? ==> r.value == s.(participants := s.participants + {(t, u)})
    ensures Valid(s) && r.Ok? ==> Valid(r.value)
  {
    if (t, u) in s.participants then Err(PrimaryKey)
    else if t !in s.trips || u !in s.users then Err(ForeignKey)
    else Ok(s.(participants := s.participants + {(t, u)}))
  }

  /** `DELETE FROM trip_participants WHERE ...`: deleting an absent pair is not an error. */
  function DeleteParticipant(s: Store, t: TripId, u: UserId): (r: Store)
    ensures (t, u) !in r.participants
    ensures forall p :: p in r.participants <==> p in s.participants && p != (t, u)
    ensures r.users == s.users && r.trips == s.trips && r.reviews == s.reviews
    ensures Valid(s) ==> Valid(r)
  {
    s.(participants := s.participants - {(t, u)})
  }

  /** `INSERT INTO reviews`: the rating CHECK and both references are enforced. */
  function InsertReview(s: Store, id: ReviewId, rv: Review): (r: Result<Store, Violation>)
    ensures r.Ok? <==> id !in s.reviews && ReviewRowOk(rv) && ReviewRefsOk(s, rv)
    ensures !(RatingMin <= rv.rating <= RatingMax) ==> r.Err?
    ensures r.Ok? ==> r.value == s.(reviews := s.reviews[id := rv])
    ensures Valid(s) && r.Ok? ==> Valid(r.value)
  {
    if id in s.reviews then Err(PrimaryKey)
    else if !ReviewRowOk(rv) then Err(Check)
    else if !ReviewRefsOk(s, rv) then Err(ForeignKey)
    else Ok(s.(reviews := s.reviews[id := rv]))
  }

  /** `DELETE FROM trips WHERE id = t`: participations and reviews of the trip cascade. */
  function DeleteTrip(s: Store, t: TripId): (r: Store)
    ensures r.users == s.users
    ensures t !in r.trips
    ensures forall o :: o in r.trips <==> o in s.trips && o != t
    ensures forall o :: o in r.trips ==> r.trips[o] == s.trips[o]
    ensures forall p :: p in r.participants <==> p in s.participants && p.0 != t
    ensures forall id :: id in r.reviews <==> id in s.reviews && s.reviews[id].tripId != t
    ensures forall id :: id in r.reviews ==> r.reviews[id] == s.reviews[id]
    ensures Valid(s) ==> Valid(r)
  {
    Store(
      s.users,
      s.trips - {t},
      set p | p in s.participants && p.0 != t,
      map id | id in s.reviews && s.reviews[id].tripId != t :: s.reviews[id])
  }

  /** The author reference of a review after user `u` is deleted (`ON DELETE SET NULL`). */
  function Unlink(rv: Review, u: UserId): Review {
    if rv.authorId == Some(u) then rv.(authorId := None) else rv
  }

  /**
   * `DELETE FROM users WHERE id = u`: the trips `u` hosts cascade (and with
   * them their participations and reviews), `u`'s own participations cascade,
   * and `u`'s reviews on surviving trips stay with a NULL author.
   */
  function DeleteUser(s: Store, u: UserId): (r: Store)
    ensures u !in r.users
    ensures forall o :: o in r.users <==> o in s.users && o != u
    ensures forall t :: t in r.trips <==> t in s.trips && s.trips[t].hostId != u
    ensures forall p :: p in r.participants <==>
      p in s.participants && p.1 != u && p.0 in s.trips && s.trips[p.0].hostId != u
    ensures forall id :: id in r.reviews <==>
      id in s.reviews && s.reviews[id].tripId in s.trips && s.trips[s.reviews[id].tripId].hostId != u
    ensures forall id :: id in r.reviews && s.reviews[id].authorId == Some(u) ==> r.reviews[id].authorId.None?
    ensures forall id :: id in r.reviews ==> r.reviews[id].authorId != Some(u)
    ensures forall o :: o in r.users ==> r.users[o] == s.users[o]
    ensures forall t :: t in r.trips ==> r.trips[t] == s.trips[t]
    ensures forall id :: id in r.reviews ==> r.reviews[id] == Unlink(s.reviews[id], u)
  {
    var kept := set t | t in s.trips && s.trips[t].hostId != u;
    Store(
      map o | o in s.users && o != u :: s.users[o],
      map t | t in kept :: s.trips[t],
      set p | p in s.participants && p.1 != u && p.0 in kept,
      map id | id in s.reviews && s.reviews[id].tripId in kept :: Unlink(s.reviews[id], u))
  }

  /** Deleting a user with its cascades leaves every constraint satisfied. */
  lemma DeleteUserKeepsValid(s: Store, u: UserId)
    requires Valid(s)
    ensures Valid(DeleteUser(s, u))
  {
    var r := DeleteUser(s, u);
    forall a, b | a in r.users && b in r.users && r.users[a].username == r.users[b].username
      ensures a == b
    {
      assert s.users[a] == r.users[a] && s.users[b] == r.users[b];
    }
    forall t | t in r.trips
      ensures TripRowOk(r.trips[t]) && TripRefsOk(r, r.trips[t])
    {
      assert r.trips[t] == s.trips[t];
    }
    forall id | id in r.reviews
      ensures ReviewRowOk(r.reviews[id]) && ReviewRefsOk(r, r.reviews[id])
    {
      assert r.reviews[id] == Unlink(s.reviews[id], u);
    }
  }
}

=== FILE: text.dfy ===
/**
 * String helpers with JavaScript's meaning: `startsWith`, `split` on a
 * one-character separator and its inverse `join`, and the case-insensitive
 * substring test that stands in for SQL `ILIKE '%term%'`.
 */
module Text {
  import opened Wrappers

  predicate StartsWith(s: string, prefix: string) {
    |prefix| <= |s| && s[..|prefix|] == prefix
  }

  /** Index of the first `c` in `s`, or `|s|` when there is none. */
  function IndexOf(s: string, c: char): (i: nat)
    ensures i <= |s|
    ensures i < |s| ==> s[i] == c
    ensures forall k :: 0 <= k < i ==> s[k] != c
    ensures i == |s| <==> c !in s
  {
    if |s| == 0 then 0
    else if s[0] == c then 0
    else 1 + IndexOf(s[1..], c)
  }

  /** `s.split(c)` for a one-character separator: the maximal runs between separators, in order. */
  function Split(s: string, c: char): (parts: seq<string>)
    ensures |parts| >= 1
    ensures forall i :: 0 <= i < |parts| ==> c !in parts[i]
    ensures |parts| == 1 <==> c !in s
    decreases |s|
  {
    var i := IndexOf(s, c);
    if i == |s| then [s]
    else [s[..i]] + Split(s[i + 1..], c)
  }

  /** `parts.join(c)`. */
  function Join(parts: seq<string>, c: char): string
    decreases |parts|
  {
    if |parts| == 0 then ""
    else if |parts| == 1 then parts[0]
    else parts[0] + [c] + Join(parts[1..], c)
  }

  lemma Around(s: string, i: nat)
    requires i < |s|
    ensures s == s[..i] + [s[i]] + s[i + 1..]
  {}

  /** The first piece of a split runs up to the first separator; the others are the split of what follows it. */
  lemma SplitFirst(s: string, c: char)
    ensures Split(s, c)[0] == s[..IndexOf(s, c)]
    ensures IndexOf(s, c) < |s| ==> Split(s, c)[1..] == Split(s[IndexOf(s, c) + 1..], c)
  {}

  /** Joining the pieces of a split restores the original string. */
  lemma {:induction false} JoinSplit(s: string, c: char)
    ensures Join(Split(s, c), c) == s
    decreases |s|
  {
    var i := IndexOf(s, c);
    if i < |s| {
      var head, rest := s[..i], s[i + 1..];
      JoinSplit(rest, c);
      var tail := Split(rest, c);
      var parts := [head] + tail;
      assert Split(s, c) == parts;
      assert parts[0] == head && parts[1..] == tail;
      assert Join(parts, c) == head + [c] + Join(tail, c);
      Around(s, i);
    }
  }

  /** The first separator of `head c rest` is the one after `head`, when `head` has none. */
  lemma FirstSeparator(head: string, rest: string, c: char)
    requires c !in head
    ensures IndexOf(head + [c] + rest, c) == |head|
    ensures (head + [c] + rest)[..|head|] == head
    ensures (head + [c] + rest)[|head| + 1..] == rest
    ensures Split(head + [c] + rest, c) == [head] + Split(rest, c)
  {
    var s := head + [c] + rest;
    assert s[|head|] == c;
    assert forall k :: 0 <= k < |head| ==> s[k] == head[k];
  }

  /** Splitting a join of separator-free pieces gives the pieces back. */
  lemma {:induction false} SplitJoin(parts: seq<string>, c: char)
    requires |parts| >= 1
    requires forall i :: 0 <= i < |parts| ==> c !in parts[i]
    ensures Split(Join(parts, c), c) == parts
    decreases |parts|
  {
    if |parts| > 1 {
      var head, rest := parts[0], parts[1..];
      assert c !in head;
      assert forall i :: 0 <= i < |rest| ==> rest[i] == parts[i + 1];
      SplitJoin(rest, c);
      var tail := Join(rest, c);
      JoinCons(parts, c);
      FirstSeparator(head, tail, c);
      assert parts == [head] + rest;
    }
  }

  /** A join of two or more pieces is the first piece, the separator, and the join of the others. */
  lemma JoinCons(parts: seq<string>, c: char)
    requires |parts| > 1
    ensures Join(parts, c) == parts[0] + [c] + Join(parts[1..], c)
  {}

  /** `s.split(c)[1]`: the text between the first and the second separator, or `undefined` (None). */
  function SecondField(s: string, c: char): (r: Option<string>)
    ensures r.None? <==> c !in s
    ensures r.Some? ==> c !in r.value
    ensures r.Some? ==> exists first ::
      c !in first && (s == first + [c] + r.value || StartsWith(s, first + [c] + r.value + [c]))
  {
    var parts := Split(s, c);
    if |parts| >= 2 then
      SecondFieldShape(s, c);
      Some(parts[1])
    else None
  }

  /**
   * Where the second field sits: after a separator-free first field and one
   * separator, and followed by the end of the text or another separator.
   */
  lemma SecondFieldShape(s: string, c: char)
    requires |Split(s, c)| >= 2
    ensures var first := s[..IndexOf(s, c)];
      c !in first &&
      (s == first + [c] + Split(s, c)[1] || StartsWith(s, first + [c] + Split(s, c)[1] + [c]))
  {
    var i := IndexOf(s, c);
    var first, rest := s[..i], s[i + 1..];
    SplitFirst(s, c);
    var j := IndexOf(rest, c);
    SplitFirst(rest, c);
    var t := rest[..j];
    Around(s, i);
    if j == |rest| {
      assert rest[..j] == rest;
      assert s == first + [c] + t;
    } else {
      Around(rest, j);
      Glue(s, first, rest, t, rest[j + 1..], c);
    }
  }

  /** `first c rest` where `rest` is `t c tail` starts with `first c t c`. */
  lemma Glue(s: string, first: string, rest: string, t: string, tail: string, c: char)
    requires s == first + [c] + rest && rest == t + [c] + tail
    ensures StartsWith(s, first + [c] + t + [c])
  {
    var prefix := first + [c] + t + [c];
    assert s == prefix + tail;
  }

  /** For a separator-free head and field, the second field of `head c field` is `field`. */
  lemma SecondFieldOfPair(head: string, field: string, c: char)
    requires c !in head && c !in field
    ensures SecondField(head + [c] + field, c) == Some(field)
  {
    SplitJoin([head, field], c);
    assert Join([head, field], c) == head + [c] + field;
  }

  /** Whatever follows a second separator is never looked at: the second field of `head c field c tail` is `field`. */
  lemma SecondFieldOfTriple(head: string, field: string, tail: string, c: char)
    requires c !in head && c !in field
    ensures SecondField(head + [c] + field + [c] + tail, c) == Some(field)
  {
    var s := head + [c] + field + [c] + tail;
    var rest := field + [c] + tail;
    assert s == head + [c] + rest;
    FirstSeparator(head, rest, c);
    FirstSeparator(field, tail, c);
  }

  function LowerChar(c: char): char {
    if 'A' <= c <= 'Z' then (c as int - 'A' as int + 'a' as int) as char else c
  }

  /** ASCII lower-casing; other characters are left alone. */
  function Lower(s: string): (r: string)
    ensures |r| == |s|
    ensures forall i :: 0 <= i < |s| ==> r[i] == LowerChar(s[i])
  {
    seq(|s|, i requires 0 <= i < |s| => LowerChar(s[i]))
  }

  /** `needle` occurs somewhere inside `hay`. */
  predicate IsInfixOf(needle: string, hay: string)
    decreases |hay|
  {
    StartsWith(hay, needle) || (|hay| > 0 && IsInfixOf(needle, hay[1..]))
  }

  /** `hay ILIKE '%needle%'`, read as a case-insensitive substring test. */
  predicate ContainsIgnoreCase(hay: string, needle: string) {
    IsInfixOf(Lower(needle), Lower(hay))
  }

  /** Lower-casing twice is lower-casing once. */
  lemma LowerIdempotent(s: string)
    ensures Lower(Lower(s)) == Lower(s)
  {
    assert forall i :: 0 <= i < |s| ==> LowerChar(LowerChar(s[i])) == LowerChar(s[i]);
  }

  /** The search does not see case: lower-casing either side first changes nothing. */
  lemma SearchIgnoresCase(hay: string, needle: string)
    ensures ContainsIgnoreCase(hay, needle) <==> ContainsIgnoreCase(Lower(hay), Lower(needle))
  {
    LowerIdempotent(hay);
    LowerIdempotent(needle);
  }
}

=== FILE: trip_listing.dfy ===
/**
 * The reading handlers of the trips router: the filtered list and the detail
 * of one trip. Both join each trip with its host's user row, so only trips
 * whose host exists are seen, and the detail joins each review with its
 * author, so reviews whose author was deleted are not shown.
 */
module TripListing {
  import opened Wrappers
  import opened Text
  import opened Model
  import opened Ordering
  import Schema
  import TripRoutes

  /** The query string of `GET /trips`; an absent parameter is "". */
  datatype ListQuery = ListQuery(search: string, status: string, hasSlots: string)

  /** One row of the list: the trip, its id and its participant count. */
  datatype TripCard = TripCard(id: TripId, trip: Trip, participantCount: nat)

  /** `title ILIKE '%term%' OR destination ILIKE '%term%'`, applied only for a non-empty term. */
  predicate MatchesSearch(t: Trip, term: string) {
    term == "" || ContainsIgnoreCase(t.title, term) || ContainsIgnoreCase(t.destination, term)
  }

  /** `t.status = $status`, applied only for a non-empty parameter; an unknown name matches nothing. */
  predicate MatchesStatus(t: Trip, status: string) {
    status == "" || StatusName(t.status) == status
  }

  /** The `hasSlots=true` condition: an Upcoming trip with fewer participants than its maximum. */
  predicate HasSlots(s: Store, id: TripId)
    requires id in s.trips
  {
    Count(s, id) < s.trips[id].maxParticipants && s.trips[id].status == Upcoming
  }

  /** Trip `id` is one of the rows `GET /trips` returns for query `q`. */
  predicate Listed(s: Store, q: ListQuery, id: TripId) {
    && id in s.trips
    && s.trips[id].hostId in s.users
    && MatchesSearch(s.trips[id], q.search)
    && MatchesStatus(s.trips[id], q.status)
    && (q.hasSlots == "true" ==> HasSlots(s, id))
  }

  function CreatedAt(s: Store): TripId -> int {
    id => if id in s.trips then s.trips[id].createdAt else 0
  }

  /** `GET /trips`: every listed trip once, with its count, newest `createdAt` first. */
  method ListTrips(s: Store, q: ListQuery) returns (cards: seq<TripCard>)
    ensures forall i :: 0 <= i < |cards| ==>
      Listed(s, q, cards[i].id) && cards[i].trip == s.trips[cards[i].id] &&
      cards[i].participantCount == Count(s, cards[i].id)
    ensures forall id :: Listed(s, q, id) ==> exists i :: 0 <= i < |cards| && cards[i].id == id
    ensures forall i, j :: 0 <= i < j < |cards| ==> cards[i].id != cards[j].id
    ensures forall i, j :: 0 <= i < j < |cards| ==> cards[i].trip.createdAt >= cards[j].trip.createdAt
  {
    var ids := set id | id in s.trips && Listed(s, q, id);
    var order := SortDescending(ids, CreatedAt(s));
    assert forall i :: 0 <= i < |order| ==> order[i] in ids;
    cards := seq(|order|, i requires 0 <= i < |order| => TripCard(order[i], s.trips[order[i]], Count(s, order[i])));
    forall id | Listed(s, q, id) ensures exists i :: 0 <= i < |cards| && cards[i].id == id {
      assert id in ids;
      var i :| 0 <= i < |order| && order[i] == id;
      assert cards[i].id == id;
    }
    forall i, j | 0 <= i < j < |cards| ensures cards[i].trip.createdAt >= cards[j].trip.createdAt {
      assert CreatedAt(s)(order[i]) >= CreatedAt(s)(order[j]);
    }
  }

  /** With `hasSlots=true` only Upcoming trips below capacity are listed, and all of them when nothing else filters. */
  lemma HasSlotsFilter(s: Store, q: ListQuery, id: TripId)
    requires q.hasSlots == "true"
    ensures Listed(s, q, id) ==> s.trips[id].status == Upcoming && Count(s, id) < s.trips[id].maxParticipants
    ensures q.search == "" && q.status == "" && id in s.trips && s.trips[id].hostId in s.users ==>
      (Listed(s, q, id) <==> s.trips[id].status == Upcoming && Count(s, id) < s.trips[id].maxParticipants)
  {}

  /**
   * A trip just created is on the unfiltered list with its host as the one
   * participant, and on the free-places list exactly when its maximum exceeds one.
   */
  lemma CreatedTripIsListed(s: Store, caller: UserId, id: TripId, now: int, f: TripRoutes.TripForm)
    requires Schema.Valid(s)
    requires TripRoutes.Create(s, caller, id, now, f).reply.Success?
    ensures Listed(TripRoutes.Create(s, caller, id, now, f).store, ListQuery("", "", ""), id)
    ensures Count(TripRoutes.Create(s, caller, id, now, f).store, id) == 1
    ensures Listed(TripRoutes.Create(s, caller, id, now, f).store, ListQuery("", "", "true"), id) <==>
      f.maxParticipants.value > 1
  {
    var o := TripRoutes.Create(s, caller, id, now, f);
    assert Members(o.store, id) == {caller};
  }

  /** A join that brings a trip to its maximum takes it off the free-places list. */
  lemma JoinToCapacityLeavesFreePlaces(s: Store, caller: UserId, id: TripId, q: ListQuery)
    requires q.hasSlots == "true"
    requires TripRoutes.Join(s, caller, id).reply.Success?
    requires Count(s, id) + 1 >= s.trips[id].maxParticipants
    ensures !Listed(TripRoutes.Join(s, caller, id).store, q, id)
  {}

  /** A status filter is exact equality with the stored state; a name of no state lists nothing. */
  lemma StatusFilter(s: Store, q: ListQuery, id: TripId)
    requires q.status != ""
    ensures Listed(s, q, id) ==> q.status == StatusName(s.trips[id].status)
    ensures ParseStatus(q.status).None? ==> !Listed(s, q, id)
  {
    if Listed(s, q, id) {
      ParseStatusName(s.trips[id].status);
    }
  }

  /** What `GET /trips/:id` returns. */
  datatype TripDetail = TripDetail(
    id: TripId,
    trip: Trip,
    participantCount: nat,
    participants: set<UserId>,
    reviews: seq<ReviewId>)

  /** A review of trip `id` that the detail shows: its author still exists. */
  predicate ShownReview(s: Store, id: TripId, r: ReviewId) {
    r in s.reviews && s.reviews[r].tripId == id &&
    s.reviews[r].authorId.Some? && s.reviews[r].authorId.value in s.users
  }

  function ReviewCreatedAt(s: Store): ReviewId -> int {
    r => if r in s.reviews then s.reviews[r].createdAt else 0
  }

  /** `GET /trips/:id`: 404 for an unknown trip, else the trip, its participants and its reviews newest first. */
  method GetTrip(s: Store, id: TripId) returns (r: Result<TripDetail, HttpError>)
    ensures r.Err? <==> id !in s.trips || s.trips[id].hostId !in s.users
    ensures r.Err? ==> r.error == NotFound
    ensures r.Ok? ==>
      && r.value.id == id && r.value.trip == s.trips[id]
      && r.value.participantCount == Count(s, id)
      && (forall u :: u in r.value.participants <==> (id, u) in s.participants && u in s.users)
      && (forall x :: x in r.value.reviews <==> ShownReview(s, id, x))
      && (forall i :: 0 <= i < |r.value.reviews| ==> ShownReview(s, id, r.value.reviews[i]))
      && Distinct(r.value.reviews)
      && (forall i, j :: 0 <= i < j < |r.value.reviews| ==>
            s.reviews[r.value.reviews[i]].createdAt >= s.reviews[r.value.reviews[j]].createdAt)
  {
    if id !in s.trips || s.trips[id].hostId !in s.users {
      return Err(NotFound);
    }
    var people := set u | u in Members(s, id) && u in s.users;
    var shown := set x | x in s.reviews && ShownReview(s, id, x);
    var order := SortDescending(shown, ReviewCreatedAt(s));
    assert forall i :: 0 <= i < |order| ==> order[i] in shown;
    forall i, j | 0 <= i < j < |order| ensures s.reviews[order[i]].createdAt >= s.reviews[order[j]].createdAt {
      assert ReviewCreatedAt(s)(order[i]) >= ReviewCreatedAt(s)(order[j]);
    }
    r := Ok(TripDetail(id, s.trips[id], Count(s, id), people, order));
  }
}

=== FILE: trip_routes.dfy ===
/**
 * The writing handlers of the trips router, each one sequential step from a
 * store to a store and a reply. They do what the handlers do, which is less
 * than the lifecycle rules one might expect: joining inserts first and only
 * then flips the trip to Full (whatever its status, and with no capacity
 * check), leaving needs no membership and no host check, cancel and conclude
 * only refuse a repeat of their own target state, and a review is stored
 * whatever the trip's status and whoever wrote it. Any error the database
 * raises becomes a 500.
 */
module TripRoutes {
  import opened Wrappers
  import opened Model
  import opened Schema
  import opened DataUrl

  /** The body of a create or edit request; a field the body lacks is None and is written as SQL NULL. */
  datatype TripForm = TripForm(
    title: Option<string>,
    description: Option<string>,
    destination: Option<string>,
    startDate: Option<int>,
    endDate: Option<int>,
    minParticipants: Option<int>,
    maxParticipants: Option<int>,
    coverPhoto: Option<string>)

  /** The form gives a value to every NOT NULL column it writes, the cover photo aside. */
  predicate Complete(f: TripForm) {
    && f.title.Some? && f.description.Some? && f.destination.Some?
    && f.startDate.Some? && f.endDate.Some? && f.minParticipants.Some? && f.maxParticipants.Some?
  }

  /** A supplied cover photo in JavaScript's sense: present and not "". */
  predicate Supplied(cover: Option<string>) {
    cover.Some? && cover.value != ""
  }

  /** The photo a request carries: none, the decoded payload of a matching data URL, or 400. */
  function CoverOf(cover: Option<string>): (r: Result<Option<Photo>, HttpError>)
    ensures !Supplied(cover) ==> r == Ok(None)
    ensures Supplied(cover) ==> (r == Err(BadRequest) <==> MatchCover(cover.value).None?)
    ensures Supplied(cover) && MatchCover(cover.value).Some? ==> r.Ok?
    ensures Supplied(cover) && r.Ok? ==> r.value == Some(Photo(MatchCover(cover.value).value.data))
  {
    if !Supplied(cover) then Ok(None)
    else
      match MatchCover(cover.value)
      case None => Err(BadRequest)
      case Some(m) => Ok(Some(Photo(m.data)))
  }

  /** The text columns accept the form's values (given that it has them): each fits or loses only spaces. */
  predicate FitsColumns(f: TripForm)
    requires Complete(f)
  {
    && Varchar(f.title.value, TitleMax).Some?
    && Varchar(f.description.value, DescriptionMax).Some?
    && Varchar(f.destination.value, DestinationMax).Some?
  }

  /** Trip row `t` holds every value of form `f`, the text as its VARCHAR column stores it. */
  predicate Holds(t: Trip, f: TripForm) {
    && f.title.Some? && Varchar(f.title.value, TitleMax) == Some(t.title)
    && f.description.Some? && Varchar(f.description.value, DescriptionMax) == Some(t.description)
    && f.destination.Some? && Varchar(f.destination.value, DestinationMax) == Some(t.destination)
    && f.startDate == Some(t.startDate) && f.endDate == Some(t.endDate)
    && f.minParticipants == Some(t.minParticipants) && f.maxParticipants == Some(t.maxParticipants)
  }

  /** The row a complete form writes, before the columns coerce its text. */
  function FormRow(f: TripForm, photo: Option<Photo>, host: UserId, status: Status, createdAt: int): Trip
    requires Complete(f)
  {
    Trip(f.title.value, f.description.value, photo, f.destination.value, f.startDate.value, f.endDate.value,
         f.minParticipants.value, f.maxParticipants.value, host, status, createdAt)
  }

  /** Nothing but trip `id`'s row changed, and only the trips table. */
  predicate OnlyTripChanged(s: Store, r: Store, id: TripId) {
    && r.users == s.users && r.participants == s.participants && r.reviews == s.reviews
    && r.trips.Keys == s.trips.Keys
    && forall o :: o in s.trips && o != id ==> r.trips[o] == s.trips[o]
  }

  /**
   * `POST /trips`: insert the trip as Upcoming with the caller as host, then,
   * in a second insert, the caller as its first participant. A missing field
   * is a NULL the database refuses.
   */
  function Create(s: Store, caller: UserId, id: TripId, now: int, f: TripForm): (o: Outcome<(TripId, Trip)>)
    ensures Supplied(f.coverPhoto) && MatchCover(f.coverPhoto.value).None? ==> o == Outcome(s, Failure(BadRequest))
    ensures !Supplied(f.coverPhoto) ==> o == Outcome(s, Failure(ServerError))
    ensures CoverOf(f.coverPhoto).Ok? && !Complete(f) ==> o == Outcome(s, Failure(ServerError))
    ensures o.reply.Failure? ==> o.reply.error in {BadRequest, ServerError}
    ensures o.reply == Failure(BadRequest) <==> Supplied(f.coverPhoto) && MatchCover(f.coverPhoto.value).None?
    ensures o.reply.Success? ==>
      && o.reply.code == 201
      && o.reply.body.0 == id
      && id !in s.trips
      && o.store.trips == s.trips[id := o.reply.body.1]
      && Holds(o.reply.body.1, f)
      && o.reply.body.1.coverPhoto == Some(Photo(MatchCover(f.coverPhoto.value).value.data))
      && o.reply.body.1.status == Upcoming
      && o.reply.body.1.hostId == caller
      && o.reply.body.1.createdAt == now
      && o.store.participants == s.participants + {(id, caller)}
      && o.store.users == s.users && o.store.reviews == s.reviews
    ensures Valid(s) ==> Valid(o.store)
    ensures Valid(s) && o.reply.Failure? ==> o.store == s
    ensures Valid(s) ==>
      (o.reply.Success? <==>
        Supplied(f.coverPhoto) && MatchCover(f.coverPhoto.value).Some? &&
        id !in s.trips && caller in s.users && Complete(f) && FitsColumns(f))
    ensures Valid(s) && o.reply.Success? ==> Members(o.store, id) == {caller}
  {
    match CoverOf(f.coverPhoto)
    case Err(e) => Outcome(s, Failure(e))
    case Ok(photo) =>
      if !Complete(f) then Outcome(s, Failure(ServerError))
      else
        match InsertTrip(s, id, FormRow(f, photo, caller, Upcoming, now))
        case Err(_) => Outcome(s, Failure(ServerError))
        case Ok(s1) =>
          match InsertParticipant(s1, id, caller)
          case Err(_) => Outcome(s1, Failure(ServerError))
          case Ok(s2) =>
            assert Valid(s) ==> (id, caller) !in s.participants;
            Outcome(s2, Success(201, (id, s1.trips[id])))
  }

  /**
   * `PUT /trips/:id`: the host overwrites the text, date and capacity fields
   * (a missing one is a NULL the database refuses); the cover photo is kept
   * unless a new one is supplied, and the status is kept unless one is
   * supplied. Dates and capacities are not validated.
   */
  function Edit(s: Store, caller: UserId, id: TripId, f: TripForm, status: Option<Status>): (o: Outcome<Trip>)
    ensures id !in s.trips ==> o == Outcome(s, Failure(NotFound))
    ensures id in s.trips && s.trips[id].hostId != caller ==> o == Outcome(s, Failure(Forbidden))
    ensures id in s.trips && s.trips[id].hostId == caller && Supplied(f.coverPhoto) && MatchCover(f.coverPhoto.value).None? ==>
      o == Outcome(s, Failure(BadRequest))
    ensures id in s.trips && s.trips[id].hostId == caller && CoverOf(f.coverPhoto).Ok? && !Complete(f) ==>
      o == Outcome(s, Failure(ServerError))
    ensures id in s.trips && s.trips[id].hostId == caller && o.reply.Failure? ==>
      (o.reply.error == BadRequest <==> Supplied(f.coverPhoto) && MatchCover(f.coverPhoto.value).None?)
      && o.reply.error in {BadRequest, ServerError}
    ensures o.reply.Failure? ==> o.store == s
    ensures o.reply.Success? ==>
      && id in s.trips && s.trips[id].hostId == caller
      && o.reply.code == 200
      && OnlyTripChanged(s, o.store, id)
      && o.store.trips[id] == o.reply.body
      && Holds(o.reply.body, f)
      && o.reply.body.hostId == s.trips[id].hostId
      && o.reply.body.createdAt == s.trips[id].createdAt
      && o.reply.body.status == (if status.Some? then status.value else s.trips[id].status)
      && o.reply.body.coverPhoto ==
           (if Supplied(f.coverPhoto) && MatchCover(f.coverPhoto.value).Some?
            then Some(Photo(MatchCover(f.coverPhoto.value).value.data))
            else s.trips[id].coverPhoto)
    ensures Valid(s) ==> Valid(o.store)
    ensures Valid(s) && id in s.trips && s.trips[id].hostId == caller ==>
      (o.reply.Success? <==>
        (!Supplied(f.coverPhoto) || MatchCover(f.coverPhoto.value).Some?) && Complete(f) && FitsColumns(f))
  {
    if id !in s.trips then Outcome(s, Failure(NotFound))
    else if s.trips[id].hostId != caller then Outcome(s, Failure(Forbidden))
    else
      match CoverOf(f.coverPhoto)
      case Err(e) => Outcome(s, Failure(e))
      case Ok(photo) =>
        if !Complete(f) then Outcome(s, Failure(ServerError))
        else
          var prev := s.trips[id];
          var t := FormRow(f, if photo.Some? then photo else prev.coverPhoto, prev.hostId,
                           status.GetOr(prev.status), prev.createdAt);
          match UpdateTrip(s, id, t)
          case Err(_) => Outcome(s, Failure(ServerError))
          case Ok(s1) => Outcome(s1, Success(200, s1.trips[id]))
  }

  /** The shared shape of cancel and conclude: host only, refuse only a repeat of the target state. */
  function Finish(s: Store, caller: UserId, id: TripId, target: Status): Outcome<Trip> {
    if id !in s.trips then Outcome(s, Failure(NotFound))
    else if s.trips[id].hostId != caller then Outcome(s, Failure(Forbidden))
    else if s.trips[id].status == target then Outcome(s, Failure(BadRequest))
    else
      var r := SetStatus(s, id, target);
      Outcome(r, Success(200, r.trips[id]))
  }

  /** `PUT /trips/:id/cancel`. */
  function Cancel(s: Store, caller: UserId, id: TripId): (o: Outcome<Trip>)
    ensures id !in s.trips ==> o == Outcome(s, Failure(NotFound))
    ensures id in s.trips && s.trips[id].hostId != caller ==> o == Outcome(s, Failure(Forbidden))
    ensures id in s.trips && s.trips[id].hostId == caller && s.trips[id].status == Cancelled ==>
      o == Outcome(s, Failure(BadRequest))
    ensures o.reply.Success? <==>
      id in s.trips && s.trips[id].hostId == caller && s.trips[id].status != Cancelled
    ensures o.reply.Success? ==>
      && o.reply.code == 200
      && OnlyTripChanged(s, o.store, id)
      && o.store.trips[id] == s.trips[id].(status := Cancelled)
      && o.reply.body == o.store.trips[id]
    ensures o.reply.Failure? ==> o.store == s
    ensures Valid(s) ==> Valid(o.store)
  {
    Finish(s, caller, id, Cancelled)
  }

  /** `PUT /trips/:id/conclude`. */
  function Conclude(s: Store, caller: UserId, id: TripId): (o: Outcome<Trip>)
    ensures id !in s.trips ==> o == Outcome(s, Failure(NotFound))
    ensures id in s.trips && s.trips[id].hostId != caller ==> o == Outcome(s, Failure(Forbidden))
    ensures id in s.trips && s.trips[id].hostId == caller && s.trips[id].status == Concluded ==>
      o == Outcome(s, Failure(BadRequest))
    ensures o.reply.Success? <==>
      id in s.trips && s.trips[id].hostId == caller && s.trips[id].status != Concluded
    ensures o.reply.Success? ==>
      && o.reply.code == 200
      && OnlyTripChanged(s, o.store, id)
      && o.store.trips[id] == s.trips[id].(status := Concluded)
      && o.reply.body == o.store.trips[id]
    ensures o.reply.Failure? ==> o.store == s
    ensures Valid(s) ==> Valid(o.store)
  {
    Finish(s, caller, id, Concluded)
  }

  /** Cancelling twice: the second request is refused with 400 and changes nothing; the same holds for concluding. */
  lemma RepeatFinishRefused(s: Store, caller: UserId, id: TripId)
    ensures var o := Cancel(s, caller, id);
      o.reply.Success? ==> Cancel(o.store, caller, id) == Outcome(o.store, Failure(BadRequest))
    ensures var o := Conclude(s, caller, id);
      o.reply.Success? ==> Conclude(o.store, caller, id) == Outcome(o.store, Failure(BadRequest))
  {}

  /** Neither terminal state is final for the other: a concluded trip can be cancelled, and back. */
  lemma TerminalStatesInterchange(s: Store, caller: UserId, id: TripId)
    requires id in s.trips && s.trips[id].hostId == caller
    ensures s.trips[id].status == Concluded ==> Cancel(s, caller, id).store.trips[id].status == Cancelled
    ensures s.trips[id].status == Cancelled ==> Conclude(s, caller, id).store.trips[id].status == Concluded
  {}

  /**
   * `POST /trips/:id/join`: insert the pair (a duplicate, an unknown trip or
   * an unknown user makes the database refuse, answered as 500), then mark the
   * trip Full once its count reaches its maximum.
   */
  function Join(s: Store, caller: UserId, id: TripId): (o: Outcome<()>)
    ensures o.reply.Failure? <==> (id, caller) in s.participants || id !in s.trips || caller !in s.users
    ensures o.reply.Failure? ==> o == Outcome(s, Failure(ServerError))
    ensures o.reply.Success? ==>
      && o.reply.code == 204
      && o.store.participants == s.participants + {(id, caller)}
      && Members(o.store, id) == Members(s, id) + {caller}
      && Count(o.store, id) == Count(s, id) + 1
      && o.store.users == s.users && o.store.reviews == s.reviews
      && o.store.trips.Keys == s.trips.Keys
      && (forall t :: t in s.trips && t != id ==> o.store.trips[t] == s.trips[t])
      && o.store.trips[id] == s.trips[id].(status := o.store.trips[id].status)
      && (Count(o.store, id) >= s.trips[id].maxParticipants ==> o.store.trips[id].status == Full)
      && (Count(o.store, id) < s.trips[id].maxParticipants ==> o.store.trips[id].status == s.trips[id].status)
    ensures Valid(s) ==> Valid(o.store)
  {
    match InsertParticipant(s, id, caller)
    case Err(_) => Outcome(s, Failure(ServerError))
    case Ok(s1) =>
      assert Members(s1, id) == Members(s, id) + {caller};
      var s2 := if Count(s1, id) >= s1.trips[id].maxParticipants then SetStatus(s1, id, Full) else s1;
      Outcome(s2, Success(204, ()))
  }

  /** Joining checks neither status nor capacity: a cancelled trip at capacity accepts a newcomer and becomes Full. */
  lemma JoinIgnoresStatusAndCapacity(s: Store, caller: UserId, id: TripId)
    requires id in s.trips && caller in s.users && (id, caller) !in s.participants
    requires s.trips[id].status == Cancelled && Count(s, id) >= s.trips[id].maxParticipants
    ensures Join(s, caller, id).reply.Success?
    ensures Count(Join(s, caller, id).store, id) > s.trips[id].maxParticipants
    ensures Join(s, caller, id).store.trips[id].status == Full
  {}

  /** Delete the pair, then demote a Full trip to Upcoming; every other status stays. */
  function Depart(s: Store, id: TripId, u: UserId): (r: Store)
    ensures r.participants == s.participants - {(id, u)}
    ensures Members(r, id) == Members(s, id) - {u}
    ensures r.users == s.users && r.reviews == s.reviews && r.trips.Keys == s.trips.Keys
    ensures forall t :: t in s.trips && t != id ==> r.trips[t] == s.trips[t]
    ensures id in s.trips && s.trips[id].status == Full ==> r.trips[id] == s.trips[id].(status := Upcoming)
    ensures id in s.trips && s.trips[id].status != Full ==> r.trips[id] == s.trips[id]
    ensures Valid(s) ==> Valid(r)
  {
    var s1 := DeleteParticipant(s, id, u);
    assert Members(s1, id) == Members(s, id) - {u};
    if id in s1.trips && s1.trips[id].status == Full then SetStatus(s1, id, Upcoming) else s1
  }

  /** `POST /trips/:id/leave`: always 204, member or not, host or not. */
  function Leave(s: Store, caller: UserId, id: TripId): (o: Outcome<()>)
    ensures o.reply == Success(204, ())
    ensures (id, caller) !in o.store.participants
    ensures o.store.participants == s.participants - {(id, caller)}
    ensures o.store.users == s.users && o.store.reviews == s.reviews && o.store.trips.Keys == s.trips.Keys
    ensures forall t :: t in s.trips && t != id ==> o.store.trips[t] == s.trips[t]
    ensures id in s.trips && s.trips[id].status == Full ==> o.store.trips[id] == s.trips[id].(status := Upcoming)
    ensures id in s.trips && s.trips[id].status != Full ==> o.store.trips[id] == s.trips[id]
    ensures Valid(s) ==> Valid(o.store)
  {
    Outcome(Depart(s, id, caller), Success(204, ()))
  }

  /** The host leaving their own trip is accepted like anyone else's leave. */
  lemma HostMayLeave(s: Store, id: TripId)
    requires id in s.trips && (id, s.trips[id].hostId) in s.participants
    ensures Leave(s, s.trips[id].hostId, id).reply.Success?
    ensures s.trips[id].hostId !in Members(Leave(s, s.trips[id].hostId, id).store, id)
  {}

  /** `DELETE /trips/:tripId/participants/:userId`: host only, then the same effect as the target leaving. */
  function RemoveParticipant(s: Store, caller: UserId, id: TripId, target: UserId): (o: Outcome<()>)
    ensures id !in s.trips ==> o == Outcome(s, Failure(NotFound))
    ensures id in s.trips && s.trips[id].hostId != caller ==> o == Outcome(s, Failure(Forbidden))
    ensures o.reply.Success? <==> id in s.trips && s.trips[id].hostId == caller
    ensures o.reply.Success? ==>
      && o.reply.code == 204
      && o.store.participants == s.participants - {(id, target)}
      && o.store.users == s.users && o.store.reviews == s.reviews && o.store.trips.Keys == s.trips.Keys
      && (forall t :: t in s.trips && t != id ==> o.store.trips[t] == s.trips[t])
      && (s.trips[id].status == Full ==> o.store.trips[id] == s.trips[id].(status := Upcoming))
      && (s.trips[id].status != Full ==> o.store.trips[id] == s.trips[id])
    ensures Valid(s) ==> Valid(o.store)
  {
    if id !in s.trips then Outcome(s, Failure(NotFound))
    else if s.trips[id].hostId != caller then Outcome(s, Failure(Forbidden))
    else Outcome(Depart(s, id, target), Success(204, ()))
  }

  /**
   * `POST /trips/:id/reviews`: the review is inserted as it comes; only the
   * store's own constraints (fresh id, rating and comment present, rating
   * 1..5, existing trip and author) can refuse it.
   */
  function AddReview(s: Store, caller: UserId, id: TripId, reviewId: ReviewId, now: int,
                     rating: Option<int>, comment: Option<string>): (o: Outcome<()>)
    ensures rating.None? || comment.None? ==> o == Outcome(s, Failure(ServerError))
    ensures o.reply.Success? <==>
      && rating.Some? && comment.Some?
      && reviewId !in s.reviews && RatingMin <= rating.value <= RatingMax && id in s.trips && caller in s.users
    ensures o.reply.Failure? ==> o == Outcome(s, Failure(ServerError))
    ensures o.reply.Success? ==>
      && o.reply.code == 201
      && o.store.reviews == s.reviews[reviewId := Review(id, Some(caller), rating.value, comment.value, now)]
      && o.store.users == s.users && o.store.trips == s.trips && o.store.participants == s.participants
    ensures Valid(s) ==> Valid(o.store)
  {
    if rating.None? || comment.None? then Outcome(s, Failure(ServerError))
    else
      match InsertReview(s, reviewId, Review(id, Some(caller), rating.value, comment.value, now))
      case Err(_) => Outcome(s, Failure(ServerError))
      case Ok(s1) => Outcome(s1, Success(201, ()))
  }
}

=== FILE: users.dfy ===
/**
 * The users router: a user's own profile page data, the trips a user takes
 * part in, and the profile update. Profile and update are refused with 403
 * unless the path names the caller; the update refuses a username another
 * user holds, keeps the stored photo unless an image data URL is sent, and
 * otherwise writes the row whatever the new values are.
 */
module UserRoutes {
  import opened Wrappers
  import opened Text
  import opened Model
  import opened Schema
  import opened DataUrl
  import opened Ordering
  import TripListing

  /** Trip `t` is hosted by `u`. */
  predicate HostedBy(s: Store, u: UserId, t: TripId) {
    t in s.trips && s.trips[t].hostId == u
  }

  /** Trip `t` has `u` as a participant but another user as host. */
  predicate JoinedBy(s: Store, u: UserId, t: TripId) {
    t in s.trips && (t, u) in s.participants && s.trips[t].hostId != u
  }

  /** Review `r` is on a trip `u` hosts and its author still exists (the join with `users`). */
  predicate HostedReview(s: Store, u: UserId, r: ReviewId) {
    && r in s.reviews
    && s.reviews[r].tripId in s.trips && s.trips[s.reviews[r].tripId].hostId == u
    && s.reviews[r].authorId.Some? && s.reviews[r].authorId.value in s.users
  }

  /** Trip `t` appears on `u`'s trip list: `u` takes part in it and its host exists. */
  predicate OnMyTrips(s: Store, u: UserId, t: TripId) {
    t in s.trips && (t, u) in s.participants && s.trips[t].hostId in s.users
  }

  function StartDate(s: Store): TripId -> int {
    t => if t in s.trips then s.trips[t].startDate else 0
  }

  /** What `GET /users/:id/profile` returns. */
  datatype Profile = Profile(
    user: Account,
    hostedTrips: seq<TripId>,
    joinedTrips: seq<TripId>,
    hostedReviews: seq<ReviewId>)

  /**
   * `GET /users/:id/profile`: only for oneself (403), 404 for an absent user,
   * else the hosted and the joined trips latest start first, and the reviews
   * of hosted trips newest first.
   */
  method GetProfile(s: Store, caller: UserId, id: UserId) returns (r: Result<Profile, HttpError>)
    ensures r == Err(Forbidden) <==> caller != id
    ensures r == Err(NotFound) <==> caller == id && id !in s.users
    ensures r.Ok? <==> caller == id && id in s.users
    ensures r.Ok? ==>
      && id in s.users && r.value.user == AccountOf(s, id)
      && (forall t :: t in r.value.hostedTrips <==> HostedBy(s, id, t))
      && Distinct(r.value.hostedTrips) && DescendingBy(r.value.hostedTrips, StartDate(s))
      && (forall t :: t in r.value.joinedTrips <==> JoinedBy(s, id, t))
      && Distinct(r.value.joinedTrips) && DescendingBy(r.value.joinedTrips, StartDate(s))
      && (forall x :: x in r.value.hostedReviews <==> HostedReview(s, id, x))
      && Distinct(r.value.hostedReviews)
      && DescendingBy(r.value.hostedReviews, TripListing.ReviewCreatedAt(s))
  {
    if caller != id {
      return Err(Forbidden);
    }
    if id !in s.users {
      return Err(NotFound);
    }
    var hostedIds := set t | t in s.trips && HostedBy(s, id, t);
    var joinedIds := set t | t in s.trips && JoinedBy(s, id, t);
    var reviewIds := set x | x in s.reviews && HostedReview(s, id, x);
    var hosted := SortDescending(hostedIds, StartDate(s));
    var joined := SortDescending(joinedIds, StartDate(s));
    var reviews := SortDescending(reviewIds, TripListing.ReviewCreatedAt(s));
    r := Ok(Profile(AccountOf(s, id), hosted, joined, reviews));
  }

  /** A trip is never both hosted and joined on one profile. */
  lemma HostedAndJoinedDisjoint(s: Store, u: UserId, t: TripId)
    ensures !(HostedBy(s, u, t) && JoinedBy(s, u, t))
  {}

  /**
   * `GET /users/my-trips`: every trip the caller takes part in, hosted or
   * not, with its participant count, latest start first. An unknown caller
   * gets an empty list, not an error.
   */
  method MyTrips(s: Store, caller: UserId) returns (cards: seq<TripListing.TripCard>)
    ensures forall i :: 0 <= i < |cards| ==>
      OnMyTrips(s, caller, cards[i].id) && cards[i].trip == s.trips[cards[i].id] &&
      cards[i].participantCount == Count(s, cards[i].id)
    ensures forall t :: OnMyTrips(s, caller, t) ==> exists i :: 0 <= i < |cards| && cards[i].id == t
    ensures forall i, j :: 0 <= i < j < |cards| ==> cards[i].id != cards[j].id
    ensures forall i, j :: 0 <= i < j < |cards| ==> cards[i].trip.startDate >= cards[j].trip.startDate
  {
    var ids := set t | t in s.trips && OnMyTrips(s, caller, t);
    var order := SortDescending(ids, StartDate(s));
    assert forall i :: 0 <= i < |order| ==> order[i] in ids;
    cards := seq(|order|, i requires 0 <= i < |order| =>
      TripListing.TripCard(order[i], s.trips[order[i]], Count(s, order[i])));
    forall t | OnMyTrips(s, caller, t) ensures exists i :: 0 <= i < |cards| && cards[i].id == t {
      assert t in ids;
      var i :| 0 <= i < |order| && order[i] == t;
      assert cards[i].id == t;
    }
    forall i, j | 0 <= i < j < |cards| ensures cards[i].trip.startDate >= cards[j].trip.startDate {
      assert StartDate(s)(order[i]) >= StartDate(s)(order[j]);
    }
  }

  /**
   * In a consistent store the trip list is exactly the joined trips of the
   * profile plus the hosted trips the user is still a participant of.
   */
  lemma MyTripsAreJoinedOrHosted(s: Store, u: UserId, t: TripId)
    requires Valid(s)
    ensures OnMyTrips(s, u, t) <==> JoinedBy(s, u, t) || (HostedBy(s, u, t) && (t, u) in s.participants)
  {}

  /** Some user other than `id` holds `name`. */
  predicate HeldByOther(s: Store, id: UserId, name: string) {
    exists o :: o in s.users && o != id && s.users[o].username == name
  }

  /** The row the update writes: new username and mantra, the photo as the request decides. */
  function Updated(u: User, username: string, mantra: string, change: PhotoChange): User {
    u.(username := username, mantra := mantra,
       bioPhoto := if change.Replace? then Some(change.photo) else u.bioPhoto)
  }

  /**
   * The username check: `SELECT id FROM users WHERE username = $1` finds
   * another user. A missing username is NULL, which matches no row.
   */
  predicate Conflicts(s: Store, id: UserId, username: Option<string>) {
    username.Some? && HeldByOther(s, id, username.value)
  }

  /**
   * `PUT /users/:id`: 403 unless `id` is the caller, 409 when another user
   * holds the username, 500 when the photo has no payload or the row is
   * refused (a missing username or mantra, a value too long for its column,
   * or a username that collides once cut to its column); otherwise the row
   * is rewritten and returned. An id with no row updates nothing and answers
   * 200 with no body.
   */
  function UpdateProfile(s: Store, caller: UserId, id: UserId, username: Option<string>, mantra: Option<string>,
                         bioPhoto: Option<string>): (o: Outcome<Option<Account>>)
    ensures caller != id ==> o == Outcome(s, Failure(Forbidden))
    ensures caller == id && Conflicts(s, id, username) ==> o == Outcome(s, Failure(Conflict))
    ensures caller == id && !Conflicts(s, id, username) && ProfilePhotoChange(bioPhoto) == Crash ==>
      o == Outcome(s, Failure(ServerError))
    ensures caller == id && !Conflicts(s, id, username) && o.reply.Failure? ==> o.reply.error == ServerError
    ensures o.reply.Failure? ==> o.store == s
    ensures caller == id && id !in s.users && !Conflicts(s, id, username) && ProfilePhotoChange(bioPhoto) != Crash ==>
      o == Outcome(s, Success(200, None))
    ensures o.reply.Success? ==> o.reply.code == 200
    ensures id in s.users ==>
      (o.reply.Success? <==>
        && caller == id && username.Some? && mantra.Some?
        && !HeldByOther(s, id, username.value) && ProfilePhotoChange(bioPhoto) != Crash
        && Varchar(username.value, UsernameMax).Some? && Varchar(mantra.value, MantraMax).Some?
        && !HeldByOther(s, id, Varchar(username.value, UsernameMax).value))
    ensures o.reply.Success? && id in s.users ==>
      && o.store.users.Keys == s.users.Keys
      && username.Some? && Varchar(username.value, UsernameMax) == Some(o.store.users[id].username)
      && mantra.Some? && Varchar(mantra.value, MantraMax) == Some(o.store.users[id].mantra)
      && o.store.users[id].password == s.users[id].password
      && o.store.users[id] == s.users[id].(
           username := Varchar(username.value, UsernameMax).value,
           mantra := Varchar(mantra.value, MantraMax).value,
           bioPhoto := if ProfilePhotoChange(bioPhoto).Replace? then Some(ProfilePhotoChange(bioPhoto).photo)
                       else s.users[id].bioPhoto)
      && (ProfilePhotoChange(bioPhoto) == Keep ==> o.store.users[id].bioPhoto == s.users[id].bioPhoto)
      && (ProfilePhotoChange(bioPhoto).Replace? ==> o.store.users[id].bioPhoto == Some(ProfilePhotoChange(bioPhoto).photo))
      && (forall v :: v in s.users && v != id ==> o.store.users[v] == s.users[v])
      && o.store.trips == s.trips && o.store.participants == s.participants && o.store.reviews == s.reviews
      && o.reply.body == Some(AccountOf(o.store, id))
    ensures Valid(s) ==> Valid(o.store)
  {
    if caller != id then Outcome(s, Failure(Forbidden))
    else if Conflicts(s, id, username) then Outcome(s, Failure(Conflict))
    else
      var change := ProfilePhotoChange(bioPhoto);
      if change == Crash then Outcome(s, Failure(ServerError))
      else if id !in s.users then Outcome(s, Success(200, None))
      else if username.None? || mantra.None? then Outcome(s, Failure(ServerError))
      else
        match UpdateUser(s, id, Updated(s.users[id], username.value, mantra.value, change))
        case Err(_) => Outcome(s, Failure(ServerError))
        case Ok(s1) => Outcome(s1, Success(200, Some(AccountOf(s1, id))))
  }

  /**
   * Sending one's own username back is not a conflict, and text that is not
   * an image data URL leaves the photo alone: such an update of a stored
   * user with a mantra its column accepts succeeds and keeps the photo.
   */
  lemma KeepOwnUsername(s: Store, id: UserId, mantra: string, bioPhoto: Option<string>)
    requires Valid(s) && id in s.users && Varchar(mantra, MantraMax).Some?
    requires bioPhoto.None? || !StartsWith(bioPhoto.value, ProfilePrefix)
    ensures UpdateProfile(s, id, id, Some(s.users[id].username), Some(mantra), bioPhoto).reply.Success?
    ensures UpdateProfile(s, id, id, Some(s.users[id].username), Some(mantra), bioPhoto).store.users[id].bioPhoto
      == s.users[id].bioPhoto
  {
    var name := s.users[id].username;
    assert !HeldByOther(s, id, name);
    VarcharStable(name, UsernameMax);
  }
}

=== FILE: wrappers.dfy ===
/** Small failure-carrying datatypes shared by every module of the model. */
module Wrappers {

  /** A value that may be absent (a SQL NULL, a missing JSON field, an empty query result). */
  datatype Option<+T> = None | Some(value: T) {
    function GetOr(default: T): T {
      match this
      case Some(v) => v
      case None => default
    }
  }

  /** Either a value or the reason it could not be produced. */
  datatype Result<+T, +E> = Ok(value: T) | Err(error: E)
}
